=== FILE: README.md ===
# errs — a Dafny model of an opinionated Go error library

The Go package `errs` gives services one error value that carries everything
needed along its path. That covers the internal cause, a message that is safe
to show a client, log attributes, user-facing details, a domain and marker
sentinels. The value is classified into an HTTP status, logged through
`slog`, and rendered as a JSON error response.

This project models the core of the package as immutable datatypes and pure
functions, and proves properties about them.

- `values.dfy` (`Values`): `Option` for Go's nil, and `Any`, which stands in
  for `any` values such as log attributes and user details.
- `errs.dfy` (`Errs`): the sentinels and the `Error` record. It also holds
  `Error()` and `Unwrap`, the is-a relation of `errors.Is` (an error is its
  target, carries it as a marker, or unwraps to something that is), and
  `errors.As` for `*Error`. Options are modelled as field setters with a
  proved last-writer-wins rule. The file also has `New`, and `Newf` with its
  split into option arguments and format arguments.
- `compose.dfy` (`Compose`): `Wrap` and `Mark`, specified by the behaviour
  errs_test.go pins down.
- `helpers.dfy` (`Helpers`): `IsAny`.
- `log.dfy` (`Log`): `LogErr` as a function from an error and an option list
  to the single logger call it makes, if any.
- `http.dfy` (`Http`): `GetHTTPCode` as a first-match priority table,
  `HTTPGetLogLevel`, and the decisions `HandleHTTP` takes. Those decisions
  are the status, the body, the content type, the `handled` result and the
  sequence of log calls.
- `factory.dfy` (`Fluent`): the copy-on-write builder `F()...Err()`. Its
  visibility is inferred from markers until `Private` or `Public` locks it.

Modelling choices:
- A Go `error` is an `Errs.Err` with one of three shapes:
  - `Plain(id, text)`: an `errors.New` value, whose identity is `id`;
  - `Wrapped(context, cause)`: an `fmt.Errorf("%s: %w")` wrapper;
  - `Structured(e)`: an `*Error`.
- Pointer identity is value identity.
- `context.DeadlineExceeded` is one more plain sentinel.
- The `Error` record has a `Markers` field. errs.go's struct does not declare
  it, but factory.go:121 and the marker tests rely on it.
- Calls to `fmt.Errorf`, `fmt.Sprintf`, `json.Marshal` and
  `ResponseWriter.Write` are parameters:
  - `Newf` receives the formatter as a function;
  - the builder's `Message` and `UserMessage` receive the formatted error or
    text;
  - `HandleHTTP` receives whether marshalling and writing failed, and their
    error texts.
- Loggers are opaque identities.
- Log levels are the `slog` values: debug -4, warn 4, error 8.

`HandleHTTP` is modelled as the code behaves. Some of that behaviour may be
surprising to a caller:
- For an error without an `*Error` in its chain, the bare `return` gives
  `handled == false`.
- Every non-nil error is logged more than once:
  - `LogErr` at http.go:84 runs for every error;
  - a direct `Log` at http.go:96 follows for foreign errors;
  - a second, identical `LogErr` at http.go:101 follows for `*Error`.
- Both `LogErr` calls get the request attributes appended last, and
  `LogErrUseLoggerAttrs` replaces earlier attributes rather than appending
  to them. So the configured attributes of those calls are exactly the
  request attributes, and any the caller passed are dropped. The request
  attributes still follow the error's own log details and domain pair, as in
  every `LogErr` call.
- Those calls also log at the level of `DefaultLogErrOptions`, which is
  error unless the program reassigns that variable. They do not use
  `HTTPGetLogLevel(status)`, which is used only for the direct `Log` call
  and as the starting level of `HandleHTTP`'s own configuration.
- `LogErr`'s defaults capture `slog.Default()` once, when the package is
  initialised (log.go:9-13). `HandleHTTP` reads `slog.Default()` on every
  call (http.go:68-72). After a program installs a new default logger, the
  `LogErr` calls go to the old logger and the handler's own calls go to the
  new one. `HandleHTTP` therefore takes the current default logger as a
  parameter, and `Log.DefaultLogger` is the logger captured at start-up.
  The model keeps `DefaultLogErrOptions` at its initial value; see
  "## Left out".

## Model

| member | source | states |
|---|---|---|
| `Errs.Message` | errs.go:50-54 | `Error()` of an `*Error` is `Error()` of its cause; `Errs.MessageFollowsChain` states the whole rendering |
| `Errs.Is` | errs_test.go:147-184 | The loop of `errors.Is`: an error is-a its target if it equals it, carries it as a marker, or unwraps to an error that is-a it; `Errs.IsIffSomeLinkMatches` is its chain form |
| `Errs.GoIs` | helpers.go:9 | `errors.Is` with nil: nil is-a only nil, and nothing non-nil is-a nil |
| `Errs.ApplyAll` | errs.go:92-94 | The options run in order over the record; `Errs.ApplyAllResolves` states the result |
| `Compose.WrapAll` | errs_test.go:54-67 | Repeated wrapping, innermost context first; the result is non-nil exactly when the original is |
| `Fluent.Run` | factory.go:50-107 | A sequence of builder calls run in order; `Fluent.RunAppend` and the lemmas after it state what it yields |
| `Errs.SentinelsDistinct` | errs.go:12-27 | The eleven canonical sentinels, and `context.DeadlineExceeded`, are pairwise different identities |
| `Errs.Unwrap` | errs.go:57-59 | An `*Error` unwraps to exactly its `Internal`; only a plain error has nothing to unwrap; every unwrap step strictly shortens the chain |
| `Errs.Chain` | errs.go:56-59 | The unwrap chain starts at the error itself and has one link per unwrap step |
| `Errs.Root` | errs.go:56-59 | Unwrapping always bottoms out in a plain error |
| `Errs.ChainEndsAtRoot` | errs.go:56-59 | The last link of the unwrap chain is the root |
| `Errs.ChainLinks` | errs.go:56-59 | Consecutive links of the chain are exactly one `Unwrap` apart |
| `Errs.MessageFollowsChain` | errs.go:52-54 | `Error()` of any error is the contexts of its `%w` wrappers, outermost first, followed by the text of the plain root; an `*Error` adds nothing of its own |
| `Errs.IsIffSomeLinkMatches` | errs_test.go:147-184 | The is-a relation holds exactly when some link of the unwrap chain is the target or is an `*Error` marked with it |
| `Errs.IsReflexiveAndRoot` | errs_test.go:32-39 | Every error is-a itself and is-a the plain error at the root of its chain |
| `Errs.AsError` | log.go:24-25 | `errors.As` into `*Error` fails exactly when no link of the chain is an `*Error`, and otherwise yields the outermost one |
| `Errs.Apply` | errs.go:61-63 | An option sets its own field to the option's value and leaves every other field of the record alone |
| `Errs.ApplyAllAppend` | errs.go:92-94 | Running two option lists one after the other is running their concatenation |
| `Errs.ApplyAllResolves` | errs.go:92-94 | After the options run in order, each field holds the value of the last option that sets it, or its initial value when none does |
| `Errs.ApplyAllFrame` | errs.go:92-94 | A field no option sets keeps its initial value |
| `Errs.New` | errs.go:86-96 | `New` yields an `*Error` whose fields are resolved by the last option setting them; without an option setting `Internal` its message is `msg`; with no options every other field is zero and `LogDetails` is empty |
| `Errs.NewInternalOptionWins` | errs.go:87-94 | Options run after `Internal` is set, so the last option assigning `Internal` replaces the message given to `New` |
| `Errs.ArgsMembers` | errs.go:74-80 | The options applied by `Newf` are exactly the arguments whose dynamic type is `Option`, and the formatter receives exactly the others |
| `Errs.ArgsSplit` | errs.go:72-80 | Every argument goes to exactly one of the two groups |
| `Errs.ArgsKeepOrder` | errs.go:74-80 | Both groups keep argument order: splitting distributes over concatenation of argument lists |
| `Errs.Newf` | errs.go:70-83 | `Internal` is the formatter's result on the non-option arguments, assigned after the options and so overriding any option that set it; every other field is resolved by the options in argument order |
| `Compose.Wrap` | errs_test.go:15-30 | nil stays nil; the result is an `*Error`; its message is the context, then ": ", then the original message |
| `Compose.WrapOptions` | errs_test.go:84-126 | The options are applied to the returned record, last writer winning; for an `*Error` input every field except `Internal` is preserved unless an option sets it |
| `Compose.WrapKeepsIs` | errs_test.go:32-39 | Wrapping changes nothing about which sentinels an error is-a, in either direction |
| `Compose.WrapAllMessage` | errs_test.go:54-67 | Any number of wrap layers render their contexts outermost first, each followed by ": ", then the original message |
| `Compose.WrapAllKeepsIs` | errs_test.go:69-82 | Any number of wrap layers keep every sentinel the original is-a, including its markers, and add none |
| `Compose.TwoLayers` | errs_test.go:54-67 | Wrapping with an inner and then an outer context renders as the outer context, ": ", the inner context, ": ", then the original message |
| `Compose.Mark` | errs_test.go:129-200 | nil stays nil; the message is unchanged; the markers are the previous ones, or none for a foreign error, plus the new sentinel |
| `Compose.MarkOptions` | errs_test.go:202-216 | The options are applied to the returned record, last writer winning; every other field of an `*Error` input is preserved unless an option sets it |
| `Compose.MarkIsMarker` | errs_test.go:147-155 | A marked error is-a its marker |
| `Compose.MarkAddsIs` | errs_test.go:147-184 | A marked error is-a a sentinel exactly when the original is or the sentinel is the marker |
| `Compose.MarkTwice` | errs_test.go:167-184 | Two successive marks both match. Every plain error the original matched still matches. An original that is not an `*Error` matches itself. The message is the original's |
| `Compose.MarkedCopyIsNotTheArgument` | errs_test.go:218-230 | Marking copies an `*Error` rather than linking it, so the marked copy does not match the argument itself |
| `Compose.MarkDoesNotMutate` | errs_test.go:218-241 | Marking one base twice gives independent results, each with only its own marker, and the base keeps no markers |
| `Compose.LayeredKeepsMarkers` | errs_test.go:244-297 | After the repository and service layers the error is-a the root, both markers and nothing else |
| `Compose.LayeredMessage` | errs_test.go:244-297 | The service-level message renders both contexts, outer to inner, then the root message |
| `Helpers.IsAny` | helpers.go:7-14 | `IsAny` holds exactly when `errors.Is` holds for some reference; with no references it is false |
| `Helpers.IsAnyOrderIndependent` | helpers.go:8-13 | Only which references are given matters, not their order or repetition |
| `Helpers.IsAnyMonotone` | helpers.go:8-13 | Adding references before or after can only turn false into true |
| `Http.GetHTTPCode` | http.go:12-39 | The status is always one of the ten codes the table can produce |
| `Http.GetHTTPCodeIsFirstMatch` | http.go:13-37 | The status is that of the first row of the priority table the error matches, and 500 when it matches none |
| `Http.EarlierRowsWin` | http.go:13-35 | When a row matches, the status comes from that row or an earlier one |
| `Http.SentinelCodes` | http.go:13-37 | Each sentinel, as itself, classifies to its own row's status, and nil to 500 |
| `Compose.MarkedTwiceIs` | errs_test.go:167-184 | A plain error marked with two sentinels is-a exactly itself and the two sentinels |
| `Http.UnauthorizedBeforeNotFound` | http.go:28-35 | An error marked both Unauthorized and NotFound is a 401, whichever marker came first |
| `Http.RateLimitedBeforeInvalidArgument` | http.go:20-27 | An error marked both RateLimited and InvalidArgument is a 429, whichever marker came first |
| `Http.HTTPGetLogLevel` | http.go:41-50 | Error exactly for status 500 and above, warn exactly for 401 and 403, debug for every other status |
| `Http.StatusText` | http.go:92 | The status text is non-empty exactly for the ten codes classification produces |
| `Http.ResponseMessage` | http.go:103-107 | The body message is the safe message if non-empty, else the internal message if exposed, else the status text |
| `Http.HandleHTTP` | http.go:57-131 | nil: not handled, no response, no logs. A foreign error: the status text as plain text, not handled, two log calls. An `*Error`: handled. On a marshal failure, a bare 500. Otherwise JSON with the status, chosen message and user details, even when the write fails. In every case the first log call is `LogErr` with the request attributes appended. The handler's own log calls use its configuration: the logger that is the default at call time and the status's level, unless an option sets them. The direct call for a foreign error uses that logger and level. The marshal-failure call uses that logger at error, and the write-failure call uses it at warn. Both marshal-failure and write-failure logs carry only the request attributes |
| `Http.HandlerConfig` | http.go:68-76 | The handler's configuration starts from the current default logger and the status's log level, and keeps each unless an option sets it |
| `Http.DefaultLoggerReadTwice` | http.go:68-101 | With no options, a foreign error's `LogErr` call goes to the logger captured at start-up at the error level, and the direct call goes to the current default logger at the status's level |
| `Http.ForeignErrorsAreRedacted` | http.go:92-98 | Two foreign errors with the same status get the same response whatever their messages, and neither is handled |
| `Http.InternalIsRedactedByDefault` | http.go:103-112 | Without a safe message or `ExposeInternal`, the cause never reaches the response |
| `Http.HandleHTTPLogsCarryRequest` | http.go:77-90 | The `LogErr` calls end with exactly the request attributes and keep the caller's logger and level |
| `Http.HandleHTTPLogsAtErrorByDefault` | http.go:84-90 | With no options `HandleHTTP` logs through `LogErr` at the error level, whatever the status |
| `Http.DeadlineScenario` | http.go:57-131 | "db timeout" marked DeadlineExceeded and handled for GET /users/42 gives a 504 JSON body with "Gateway Timeout" and no details. It is handled and logged at error level with the request attributes |
| `Log.Set` | log.go:38-54 | Each setter assigns its own field, replacing attributes rather than appending, and leaves the other two |
| `Log.Configure` | log.go:19-22 | After folding the options over the defaults, each field holds its last setter's value or, if untouched, its default |
| `Log.ConfigureAppend` | log.go:20-22 | Folding two option lists in turn is folding their concatenation |
| `Log.AppendLast` | log.go:50-54 | An option appended after the caller's decides its own field and leaves the others as the caller's options made them |
| `Log.LogErr` | log.go:15-36 | No call for nil. Otherwise one call with the outermost message and the configured logger and level. With an `*Error` in the chain the attributes are its log details, then the domain pair if the domain is non-empty, then the configured attributes; otherwise only the configured attributes |
| `Log.LogErrDefaults` | log.go:9-13 | With no options the call goes to the default logger at the error level with no extra attributes |
| `Log.DomainPairIffNonEmpty` | log.go:28-30 | The `"domain"` pair is among the attributes exactly when the domain is non-empty |
| `Fluent.InferPrivate` | factory.go:77-82 | Visibility stays private exactly when it was private and every marked error classifies to 500 or above; inference never makes a builder private again |
| `Fluent.F` | factory.go:31-37 | A new builder is private and unlocked. It has no cause, safe message, user details or domain, and empty log details and markers |
| `Fluent.RunAppend` | factory.go:50-107 | A chain of builder calls composes: running two chains in turn is running their concatenation |
| `Fluent.MarkersAccumulate` | factory.go:68-70 | Markers only accumulate: every `Mark` argument is appended in call order |
| `Fluent.UserDetailsNeverSet` | factory.go:23 | No builder call sets the user details |
| `Fluent.LockedStaysLocked` | factory.go:73-75 | Once visibility is locked, no call other than `Private` or `Public` changes it |
| `Fluent.LastExplicitWins` | factory.go:87-101 | The last `Private` or `Public` decides visibility, wherever the `Mark` calls stand |
| `Fluent.InferredVisibility` | factory.go:72-82 | Without `Private` or `Public`, an unlocked builder stays private exactly when it was and every marker added classifies to 500 or above |
| `Fluent.BuiltErrorIsMarked` | factory.go:109-123 | The built error is-a every marker given to the builder |
| `Fluent.EmptyBuilder` | factory.go:109-116 | `F().Err()` is private, has no markers and no user details, and renders "unknown error" |
| `Fluent.VisibilityScenarios` | factory.go:68-101 | Marking with a 429 sentinel makes the error public. `Private()` before or after keeps it private. A 502 marker alone keeps the default, and adding a 404 marker makes it public |
| `Fluent.PublicErrorEchoesCause` | factory.go:116 | A public builder's error, when handled, shows its cause's message in the JSON body |
| `Fluent.PrivateErrorHidesCause` | factory.go:116 | A private builder's error, when handled, shows only the status text |
| `Fluent.Factory.Message` | factory.go:50-54 | `Message` sets the cause and changes nothing else |
| `Fluent.Factory.UserMessage` | factory.go:56-60 | `UserMessage` sets the safe message and changes nothing else |
| `Fluent.Factory.Logs` | factory.go:62-66 | `Logs` appends its values after the existing ones, in order, and changes nothing else |
| `Fluent.Factory.Mark` | factory.go:68-85 | `Mark` appends its markers in order. A locked builder keeps its visibility. An unlocked one stays private exactly when it was and every marker classifies to 500 or above. Nothing else changes |
| `Fluent.Factory.Private` | factory.go:87-93 | `Private` makes the builder private and locks visibility, changing nothing else |
| `Fluent.Factory.Public` | factory.go:95-101 | `Public` makes the builder public and locks visibility, changing nothing else |
| `Fluent.Factory.Domain` | factory.go:103-107 | `Domain` sets the domain and changes nothing else |
| `Fluent.Factory.Err` | factory.go:109-123 | The built record copies every field. Its cause is the builder's, or a fresh "unknown error". It exposes its internal message exactly when the builder is public |

## Left out

- slog.go is not part of this model. It is an alternative `LogErr` built on
  cockroachdb/errors. It reads `errors.GetOneLineSource`,
  `errors.GetAllDetails` and `errors.GetAllHints` from that package, and
  `getIssueLinks`, which is defined in a file outside this model.
- opts.go declares only the option record. The record is reused inside `Log`.
- Real I/O is not modelled: `slog.Logger.Log`, `ResponseWriter` headers, status
  and body writes, `http.Error` and `json.Marshal`. Each is a value in the
  returned `Http.Outcome`, with marshal and write failures as inputs.
  `http.Error`'s trailing newline and text content type are not modelled.
- Formatting is not modelled: `fmt.Errorf`, `fmt.Sprintf` and `%w`
  detection. `Newf` receives the formatter as a function, and the builder
  receives the formatted result.
- `http.StatusText` is a table over the ten codes classification can produce.
  It gives "" for every other code.
- `context.Context` is dropped. `context.DeadlineExceeded` is a plain sentinel.
- Pointer identity is not modelled, so two equal `*Error` values are the same
  error.
- Wrap and Mark recognise an `*Error` only at the top of the argument, and do
  not look through foreign wrappers to an `*Error` below. This is a modelling
  choice: no test passes them such a wrapper.
- Compose.MarkTwice: an `*Error` argument is copied, not linked. Wrap and
  Mark give the copy the argument's own cause, so the argument itself is not
  on the copy's unwrap chain. The marked or wrapped copy therefore does not
  match the original `*Error` through is-a; `Compose.MarkedCopyIsNotTheArgument`
  shows one such case. The lemma promises a match with the original only when
  the original is not an `*Error`, and a match with every plain error the
  original matched.
- Errs.Newf: while its options run, `Internal` holds a placeholder where the
  source has nil. No modelled option reads the record, and `Internal` is
  always overwritten afterwards, so the placeholder cannot be observed. Any
  cause an option sets is overwritten, as in the source.
- Errs.ErrOption: Go's `Option` is any `func(*Error)`. The model has only
  options that assign one field a fixed value. An option that appends to a
  field (for example, adds log details) or reads the record is not modelled.
  The last-writer-wins results (`Errs.ApplyAllResolves`, `Errs.New`,
  `Errs.Newf`, `Compose.WrapOptions`, `Compose.MarkOptions`) hold only for
  such assigning options.
- Log.LogErr: the exported variable `DefaultLogErrOptions` (log.go:9-13) is
  fixed at its initial value: the default logger captured at start-up, the
  error level and no attributes. `LogErr` copies that variable on every call
  (log.go:19), so a program that reassigns it changes every later call,
  including the two inside `HandleHTTP`. `Log.LogErrDefaults`,
  `Http.HandleHTTPLogsAtErrorByDefault` and `Http.DefaultLoggerReadTwice`
  describe only programs that never write it.
- Errs.Err: errors with several causes (`errors.Join`, `fmt.Errorf` with
  several `%w`, anything with `Unwrap() []error`) are not modelled. Is-a and
  `errors.As` follow a single unwrap chain, so a joined error such as
  `errors.Join(ErrNotFound, ErrRateLimited)` cannot be classified here, and
  the formatter given to `Newf` returns a single-chain error.
- Dynamic typing is not modelled. The arguments of `Newf` are a tagged union,
  so only values of type `Option` are treated as options.
- nil as an `Internal` cause, and nil markers, are not modelled. The builder
  always has a cause by the time `Err` runs.
- `clone` and the copy-on-write snapshots fall out of value semantics. A
  builder step cannot change its receiver, so non-mutation needs no separate
  statement.
- The in-place default assignment in `Err` (factory.go:110-112) is not
  modelled. `Err` is pure, and the fresh "unknown error" gets an identity
  chosen by the caller.
- Slice aliasing between the builder and the built record is not modelled.
- Log levels are not filtered. The model records each call a handler would
  receive, whatever the logger's minimum level.

=== FILE: compose.dfy ===
/** `Wrap` and `Mark`: the two composition operations that enrich an error as
    it travels up call layers. Their behaviour is the one errs_test.go pins:
    nil stays nil, wrapping prefixes context and keeps everything else,
    marking adds one marker and keeps the message. */
module Compose {
  import opened Values
  import opened Errs

  /** The record `Wrap` builds before running its options: an `*Error` keeps
      all its fields and gets its `Internal` wrapped with the context; any
      other error becomes the cause of a fresh record. */
  function WrapBase(e: Err, msg: string): Error {
    if e.Structured? then e.e.(internal := Wrapped(msg, e.e.internal))
    else Fresh(Wrapped(msg, e))
  }

  /** `Wrap(err, msg, opts...)`. */
  function Wrap(err: Option<Err>, msg: string, opts: seq<ErrOption>): (r: Option<Err>)
    ensures r.Some? <==> err.Some?
    ensures r.Some? ==> r.value.Structured?
    ensures err.Some? && NoneSets(opts, InternalField) ==>
              Message(r.value) == msg + ": " + Message(err.value)
  {
    match err
    case None => None
    case Some(e) =>
      var base := WrapBase(e, msg);
      ApplyAllFrameIf(base, opts, InternalField);
      Some(Structured(ApplyAll(base, opts)))
  }

  /** The options given to `Wrap` are applied to the returned record, last
      writer winning, and every field of a wrapped `*Error` other than its
      cause is kept unless an option sets it. */
  lemma WrapOptions(e: Err, msg: string, opts: seq<ErrOption>)
    ensures forall f :: Resolved(WrapBase(e, msg), opts, Wrap(Some(e), msg, opts).value.e, f)
    ensures e.Structured? ==>
              forall f | f != InternalField && NoneSets(opts, f) :: Agree(Wrap(Some(e), msg, opts).value.e, e.e, f)
  {
    var base := WrapBase(e, msg);
    ApplyAllResolvesEvery(base, opts);
    ApplyAllFrameEvery(base, opts);
  }

  /** The record `Mark` builds before running its options: an `*Error` is
      copied with one more marker, any other error becomes the cause of a
      fresh record marked only with `s`. */
  function MarkBase(e: Err, s: Err): Error {
    if e.Structured? then e.e.(markers := e.e.markers + [s])
    else Fresh(e).(markers := [s])
  }

  /** `Mark(err, s, opts...)`. */
  function Mark(err: Option<Err>, s: Err, opts: seq<ErrOption>): (r: Option<Err>)
    ensures r.Some? <==> err.Some?
    ensures r.Some? ==> r.value.Structured?
    ensures err.Some? && NoneSets(opts, InternalField) ==> Message(r.value) == Message(err.value)
    ensures err.Some? && NoneSets(opts, MarkersField) ==>
              r.value.e.markers == (if err.value.Structured? then err.value.e.markers else []) + [s]
  {
    match err
    case None => None
    case Some(e) =>
      var base := MarkBase(e, s);
      ApplyAllFrameIf(base, opts, InternalField);
      ApplyAllFrameIf(base, opts, MarkersField);
      Some(Structured(ApplyAll(base, opts)))
  }

  /** The options given to `Mark` are applied to the returned record, last
      writer winning, and every field of a marked `*Error` other than its
      markers is kept unless an option sets it. */
  lemma MarkOptions(e: Err, s: Err, opts: seq<ErrOption>)
    ensures forall f :: Resolved(MarkBase(e, s), opts, Mark(Some(e), s, opts).value.e, f)
    ensures e.Structured? ==>
              forall f | f != MarkersField && NoneSets(opts, f) :: Agree(Mark(Some(e), s, opts).value.e, e.e, f)
  {
    var base := MarkBase(e, s);
    ApplyAllResolvesEvery(base, opts);
    ApplyAllFrameEvery(base, opts);
  }

  /** Options that leave the cause and the markers alone. */
  predicate KeepsChain(opts: seq<ErrOption>) {
    NoneSets(opts, InternalField) && NoneSets(opts, MarkersField)
  }

  /** Wrapping does not change what an error is-a, for every sentinel (plain) target. */
  lemma WrapKeepsIs(e: Err, msg: string, opts: seq<ErrOption>, t: Err)
    requires KeepsChain(opts)
    requires t.Plain?
    ensures Is(Wrap(Some(e), msg, opts).value, t) <==> Is(e, t)
  {
    var base := WrapBase(e, msg);
    ApplyAllFrame(base, opts, InternalField);
    ApplyAllFrame(base, opts, MarkersField);
  }

  /** A marked error is-a its marker, whatever the marker is. */
  lemma MarkIsMarker(e: Err, s: Err, opts: seq<ErrOption>)
    requires NoneSets(opts, MarkersField)
    ensures Is(Mark(Some(e), s, opts).value, s)
  {
    var r := Mark(Some(e), s, opts).value;
    assert s in r.e.markers;
  }

  /** Marking adds exactly the marker: on sentinel (plain) targets the marked
      error is-a `t` iff the original is-a `t` or `t` is the marker. */
  lemma MarkAddsIs(e: Err, s: Err, opts: seq<ErrOption>, t: Err)
    requires KeepsChain(opts)
    requires t.Plain?
    ensures Is(Mark(Some(e), s, opts).value, t) <==> Is(e, t) || t == s
  {
    var base := MarkBase(e, s);
    ApplyAllFrame(base, opts, InternalField);
    ApplyAllFrame(base, opts, MarkersField);
  }

  /** `Wrap` applied once per context, innermost context first. */
  function WrapAll(err: Option<Err>, contexts: seq<string>): (r: Option<Err>)
    decreases |contexts|
    ensures r.Some? <==> err.Some?
  {
    if contexts == [] then err
    else Wrap(WrapAll(err, contexts[..|contexts| - 1]), contexts[|contexts| - 1], [])
  }

  /** The contexts of wrap layers rendered outer to inner. */
  function Layers(contexts: seq<string>): string
    decreases |contexts|
  {
    if contexts == [] then ""
    else contexts[|contexts| - 1] + ": " + Layers(contexts[..|contexts| - 1])
  }

  /** Any number of wrap layers render as their contexts, outermost first,
      each followed by ": ", then the original message. */
  lemma {:induction false} WrapAllMessage(e: Err, contexts: seq<string>)
    decreases |contexts|
    ensures Message(WrapAll(Some(e), contexts).value) == Layers(contexts) + Message(e)
  {
    if contexts != [] {
      var inner := contexts[..|contexts| - 1];
      var c := contexts[|contexts| - 1];
      WrapAllMessage(e, inner);
      var w := WrapAll(Some(e), inner).value;
      assert Message(Wrap(Some(w), c, []).value) == c + ": " + Message(w);
      assert c + ": " + (Layers(inner) + Message(e)) == (c + ": " + Layers(inner)) + Message(e);
    }
  }

  /** Any number of wrap layers keep every sentinel the original is-a, and add none. */
  lemma {:induction false} WrapAllKeepsIs(e: Err, contexts: seq<string>, t: Err)
    requires t.Plain?
    decreases |contexts|
    ensures Is(WrapAll(Some(e), contexts).value, t) <==> Is(e, t)
  {
    if contexts != [] {
      var inner := contexts[..|contexts| - 1];
      WrapAllKeepsIs(e, inner, t);
      WrapKeepsIs(WrapAll(Some(e), inner).value, contexts[|contexts| - 1], [], t);
    }
  }

  lemma WrapMessage(e: Err, msg: string)
    ensures Message(Wrap(Some(e), msg, []).value) == msg + ": " + Message(e)
  {
  }

  /** Two contexts joined in front of a message, regrouped. */
  lemma JoinContexts(outer: string, inner: string, m: string)
    ensures outer + ": " + (inner + ": " + m) == outer + ": " + inner + ": " + m
  {
  }

  /** Two layers render outer context first: `Wrap(Wrap(e, inner), outer).Error()`
      is `outer + ": " + inner + ": " + e.Error()`. */
  lemma TwoLayers(e: Err, inner: string, outer: string)
    ensures Message(Wrap(Wrap(Some(e), inner, []), outer, []).value) == outer + ": " + inner + ": " + Message(e)
  {
    var w1 := Wrap(Some(e), inner, []).value;
    assert Wrap(Some(e), inner, []) == Some(w1);
    WrapMessage(e, inner);
    WrapMessage(w1, outer);
    JoinContexts(outer, inner, Message(e));
  }

  /** Marking twice with different sentinels: both markers and every plain
      error the original was match, an original that is not an `*Error`
      matches itself, and the message is the original's. */
  lemma MarkTwice(e: Err, s1: Err, s2: Err, t: Err)
    requires t.Plain?
    ensures Is(Mark(Mark(Some(e), s1, []), s2, []).value, s1)
    ensures Is(Mark(Mark(Some(e), s1, []), s2, []).value, s2)
    ensures Is(e, t) ==> Is(Mark(Mark(Some(e), s1, []), s2, []).value, t)
    ensures !e.Structured? ==> Is(Mark(Mark(Some(e), s1, []), s2, []).value, e)
    ensures Message(Mark(Mark(Some(e), s1, []), s2, []).value) == Message(e)
  {
    var m1 := Mark(Some(e), s1, []).value;
    var m2 := Mark(Some(m1), s2, []).value;
    assert s1 in m1.e.markers;
    assert s1 in m2.e.markers;
    MarkIsMarker(m1, s2, []);
    MarkAddsIs(e, s1, [], t);
    MarkAddsIs(m1, s2, [], t);
    if !e.Structured? {
      assert m2.e.internal == e;
      IsReflexiveAndRoot(e);
    }
  }

  /** A plain error marked with two sentinels is-a exactly those three errors. */
  lemma MarkedTwiceIs(base: Err, s1: Err, s2: Err)
    requires base.Plain?
    ensures forall t: Err | t.Plain? ::
              Is(Mark(Mark(Some(base), s1, []), s2, []).value, t) <==> t == base || t == s1 || t == s2
  {
    var m1 := Mark(Some(base), s1, []).value;
    forall t: Err | t.Plain?
      ensures Is(Mark(Some(m1), s2, []).value, t) <==> t == base || t == s1 || t == s2
    {
      PlainIsEquality(base, t);
      MarkAddsIs(base, s1, [], t);
      MarkAddsIs(m1, s2, [], t);
    }
  }

  /** Marking copies an `*Error` rather than linking it: the copy has the
      argument's cause and one more marker, so it does not match the
      argument itself. */
  lemma MarkedCopyIsNotTheArgument()
    ensures var x := Fresh(Plain(1, "a"));
            !Is(Mark(Some(Structured(x)), Plain(2, "b"), []).value, Structured(x))
  {
    var x := Fresh(Plain(1, "a"));
    var m := Mark(Some(Structured(x)), Plain(2, "b"), []).value;
    assert m.e.markers == [Plain(2, "b")];
    assert m != Structured(x);
    assert Unwrap(m) == Some(Plain(1, "a"));
  }

  /** Marking the same base twice gives independent results: each result
      carries only its own marker, and the base keeps no markers. */
  lemma MarkDoesNotMutate(id: nat, m1: Err, m2: Err)
    requires m1.Plain? && m2.Plain? && m1 != m2
    requires m1 != Plain(id, "base") && m2 != Plain(id, "base")
    ensures New(id, "base", []).e.markers == []
    ensures Mark(Some(New(id, "base", [])), m1, []).value.e.markers == [m1]
    ensures !Is(Mark(Some(New(id, "base", [])), m1, []).value, m2)
    ensures !Is(Mark(Some(New(id, "base", [])), m2, []).value, m1)
  {
    var base := New(id, "base", []);
    MarkAddsIs(base, m1, [], m2);
    MarkAddsIs(base, m2, [], m1);
  }

  /** The layered scenario of the integration test: a database error marked
      NotFound and wrapped by the repository layer, then marked with a
      permission error and wrapped by the service layer. */
  function Layered(db: Err, notFound: Err, permission: Err): Err {
    var repo := Wrap(Mark(Some(db), notFound, []), "user lookup failed", []);
    Wrap(Mark(repo, permission, []), "authorization check", []).value
  }

  /** Both markers and the root survive the two layers; no other sentinel appears. */
  lemma LayeredKeepsMarkers(db: Err, notFound: Err, permission: Err)
    requires db.Plain? && notFound.Plain? && permission.Plain?
    ensures Is(Layered(db, notFound, permission), permission)
    ensures Is(Layered(db, notFound, permission), notFound)
    ensures Is(Layered(db, notFound, permission), db)
    ensures forall t: Err | t.Plain? :: Is(Layered(db, notFound, permission), t) <==> t in {db, notFound, permission}
  {
    var marked := Mark(Some(db), notFound, []).value;
    var repo := Wrap(Some(marked), "user lookup failed", []).value;
    var marked2 := Mark(Some(repo), permission, []).value;
    var svc := Wrap(Some(marked2), "authorization check", []).value;
    assert svc == Layered(db, notFound, permission);
    forall t: Err | t.Plain?
      ensures Is(svc, t) <==> t in {db, notFound, permission}
    {
      assert Is(db, t) <==> t == db;
      MarkAddsIs(db, notFound, [], t);
      WrapKeepsIs(marked, "user lookup failed", [], t);
      MarkAddsIs(repo, permission, [], t);
      WrapKeepsIs(marked2, "authorization check", [], t);
    }
  }

  /** The service-level message renders the whole chain, outer to inner. */
  lemma LayeredMessage(db: Err, notFound: Err, permission: Err)
    ensures Message(Layered(db, notFound, permission))
         == "authorization check" + ": " + "user lookup failed" + ": " + Message(db)
  {
    var marked := Mark(Some(db), notFound, []).value;
    assert Mark(Some(db), notFound, []) == Some(marked);
    var repo := Wrap(Some(marked), "user lookup failed", []).value;
    assert Wrap(Some(marked), "user lookup failed", []) == Some(repo);
    var marked2 := Mark(Some(repo), permission, []).value;
    assert Mark(Some(repo), permission, []) == Some(marked2);
    WrapMessage(marked, "user lookup failed");
    WrapMessage(marked2, "authorization check");
    JoinContexts("authorization check", "user lookup failed", Message(db));
  }
}

=== FILE: errs.dfy ===
/** The error value of the library (`errs.go`): the canonical sentinels, the
    `Error` record, the is-a relation of Go's `errors.Is` over unwrap chains
    that may carry markers, `New`/`Newf` and the functional options they take. */
module Errs {
  import opened Values

  /** A non-nil Go `error`. Nil is `Values.None` wherever an error may be absent.
      - `Plain` is a value made by `errors.New` (or any error that does not
        unwrap); `id` is its allocation identity, so two plain errors with the
        same text are still different errors.
      - `Wrapped` is a foreign `%w` wrapper, `fmt.Errorf("%s: %w", context, cause)`.
      - `Structured` is an `*Error` of this library. */
  datatype Err =
    | Plain(id: nat, text: string)
    | Wrapped(context: string, cause: Err)
    | Structured(e: Error)

  /** The `Error` record. `markers` are sentinels this value additionally is. */
  datatype Error = Error(
    internal: Err,
    exposeInternal: bool,
    safeMessage: string,
    logDetails: seq<Any>,
    userDetails: Option<Any>,
    domain: string,
    markers: seq<Err>)

  // The canonical sentinels, and `context.DeadlineExceeded` as one more identity.
  const NotImplemented: Err := Plain(1, "not implemented")
  const RemoteServiceErr: Err := Plain(2, "remote service error")
  const RateLimited: Err := Plain(3, "rate limited")
  const InvalidArgument: Err := Plain(4, "invalid argument")
  const MissingArgument: Err := Plain(5, "missing argument")
  const OutOfRange: Err := Plain(6, "out of range")
  const PermissionDenied: Err := Plain(7, "permission denied")
  const Unauthorized: Err := Plain(8, "unauthorized")
  const Exists: Err := Plain(9, "already exists")
  const NotFound: Err := Plain(10, "not found")
  const Outdated: Err := Plain(11, "outdated")
  const DeadlineExceeded: Err := Plain(12, "context deadline exceeded")

  const Sentinels: seq<Err> := [
    NotImplemented, RemoteServiceErr, RateLimited,
    InvalidArgument, MissingArgument, OutOfRange,
    PermissionDenied, Unauthorized,
    Exists, NotFound, Outdated
  ]

  /** The eleven canonical sentinels are pairwise different identities. */
  lemma SentinelsDistinct()
    ensures |Sentinels| == 11
    ensures forall i, j | 0 <= i < j < |Sentinels| :: Sentinels[i] != Sentinels[j]
    ensures forall i | 0 <= i < |Sentinels| :: Sentinels[i].Plain? && Sentinels[i] != DeadlineExceeded
  {
  }

  /** `e.Error()`: a structured error renders as its internal cause. */
  function Message(e: Err): string {
    match e
    case Plain(_, text) => text
    case Wrapped(context, cause) => context + ": " + Message(cause)
    case Structured(x) => Message(x.internal)
  }

  /** Number of unwrap steps from `e` down to its plain root. */
  function Depth(e: Err): nat {
    match e
    case Plain(_, _) => 0
    case Wrapped(_, cause) => 1 + Depth(cause)
    case Structured(x) => 1 + Depth(x.internal)
  }

  /** `errors.Unwrap(e)`: an `*Error` unwraps to its `Internal`, a `%w` wrapper to
      its cause, and a plain error to nil. Every step gets closer to the root. */
  function Unwrap(e: Err): (r: Option<Err>)
    ensures r.None? <==> e.Plain?
    ensures e.Structured? ==> r == Some(e.e.internal)
    ensures r.Some? ==> Depth(r.value) < Depth(e)
  {
    match e
    case Plain(_, _) => None
    case Wrapped(_, cause) => Some(cause)
    case Structured(x) => Some(x.internal)
  }

  /** The unwrap chain of `e`, outermost first, ending in a plain error. */
  function Chain(e: Err): (c: seq<Err>)
    decreases Depth(e)
    ensures |c| == Depth(e) + 1
    ensures c[0] == e
  {
    match Unwrap(e)
    case None => [e]
    case Some(next) => [e] + Chain(next)
  }

  /** The plain error at the bottom of the unwrap chain. */
  function Root(e: Err): (r: Err)
    decreases Depth(e)
    ensures r.Plain?
  {
    if e.Plain? then e else Root(Unwrap(e).value)
  }

  /** The chain ends at the root. */
  lemma {:induction false} ChainEndsAtRoot(e: Err)
    decreases Depth(e)
    ensures Chain(e)[|Chain(e)| - 1] == Root(e)
  {
    if !e.Plain? {
      var next := Unwrap(e).value;
      ChainEndsAtRoot(next);
      var rest := Chain(next);
      assert Chain(e) == [e] + rest;
      assert ([e] + rest)[|rest|] == rest[|rest| - 1];
    }
  }

  /** Consecutive links of a chain are one unwrap step apart. */
  lemma {:induction false} ChainLinks(e: Err)
    decreases Depth(e)
    ensures forall i | 0 <= i < |Chain(e)| - 1 :: Unwrap(Chain(e)[i]) == Some(Chain(e)[i + 1])
  {
    if !e.Plain? {
      var next := Unwrap(e).value;
      ChainLinks(next);
      assert Chain(e) == [e] + Chain(next);
      forall i | 0 <= i < |Chain(e)| - 1
        ensures Unwrap(Chain(e)[i]) == Some(Chain(e)[i + 1])
      {
        if i > 0 {
          assert Chain(e)[i] == Chain(next)[i - 1];
        }
      }
    }
  }

  /** One link of a chain matches `t`: it is `t`, or it is an `*Error` marked with `t`. */
  predicate Matches(link: Err, t: Err) {
    link == t || (link.Structured? && t in link.e.markers)
  }

  /** The is-a relation: `e` is `t`, carries `t` as a marker, or unwraps to
      something that is-a `t`; the loop of `errors.Is` as a recursion. */
  predicate Is(e: Err, t: Err)
    decreases Depth(e)
  {
    Matches(e, t) || (Unwrap(e).Some? && Is(Unwrap(e).value, t))
  }

  /** `errors.Is` on nil-able errors: nil is only nil. */
  predicate GoIs(err: Option<Err>, target: Option<Err>): (r: bool)
    ensures err.None? ==> (r <==> target.None?)
    ensures target.None? ==> (r <==> err.None?)
  {
    if err.None? || target.None? then err == target else Is(err.value, target.value)
  }

  /** Is-a holds exactly when some link of the unwrap chain matches. */
  lemma {:induction false} IsIffSomeLinkMatches(e: Err, t: Err)
    decreases Depth(e)
    ensures Is(e, t) <==> exists i | 0 <= i < |Chain(e)| :: Matches(Chain(e)[i], t)
  {
    var c := Chain(e);
    if e.Plain? {
      assert c == [e];
    } else {
      var next := Unwrap(e).value;
      var rest := Chain(next);
      IsIffSomeLinkMatches(next, t);
      ChainStep(e);
      assert c == [e] + rest;
      if Is(e, t) {
        if !Matches(e, t) {
          var i :| 0 <= i < |rest| && Matches(rest[i], t);
          assert c[i + 1] == rest[i];
        } else {
          assert Matches(c[0], t);
        }
      }
      if exists i | 0 <= i < |c| :: Matches(c[i], t) {
        var i :| 0 <= i < |c| && Matches(c[i], t);
        if i > 0 {
          assert c[i] == rest[i - 1];
        }
      }
    }
  }

  /** Every error is-a itself and is-a the plain root of its chain. */
  lemma {:induction false} IsReflexiveAndRoot(e: Err)
    decreases Depth(e)
    ensures Is(e, e)
    ensures Is(e, Root(e))
  {
    if !e.Plain? {
      IsReflexiveAndRoot(Unwrap(e).value);
    }
  }

  /** A plain error (a sentinel) is-a only itself. */
  lemma PlainIsEquality(a: Err, b: Err)
    requires a.Plain?
    ensures Is(a, b) <==> a == b
  {
  }

  /** What one link adds in front of the message of the link after it. */
  function LinkContext(link: Err): string {
    if link.Wrapped? then link.context + ": " else ""
  }

  /** The contexts of the `%w` wrappers on a chain, outermost first, each followed by ": ". */
  function ContextPrefix(chain: seq<Err>): string {
    if chain == [] then "" else LinkContext(chain[0]) + ContextPrefix(chain[1..])
  }

  /** Below its head, the chain of `e` is the chain of what `e` unwraps to. */
  lemma ChainStep(e: Err)
    requires !e.Plain?
    ensures Chain(e) == [e] + Chain(Unwrap(e).value)
  {
  }

  lemma ContextStep(e: Err)
    requires !e.Plain?
    ensures ContextPrefix(Chain(e)) == LinkContext(e) + ContextPrefix(Chain(Unwrap(e).value))
  {
  }

  lemma MessageStep(e: Err, prefix: string, root: string)
    requires !e.Plain?
    requires Message(Unwrap(e).value) == prefix + root
    ensures Message(e) == (LinkContext(e) + prefix) + root
  {
  }

  /** The rendered message is every wrap layer's context, outer to inner, then
      the root's text; `*Error` links add nothing of their own. */
  lemma {:induction false} MessageFollowsChain(e: Err)
    decreases Depth(e)
    ensures Message(e) == ContextPrefix(Chain(e)) + Root(e).text
  {
    if e.Plain? {
      assert Chain(e) == [e];
      assert [e][1..] == [];
    } else {
      var next := Unwrap(e).value;
      MessageFollowsChain(next);
      ContextStep(e);
      MessageStep(e, ContextPrefix(Chain(next)), Root(next).text);
    }
  }

  /** `errors.As(err, &e)` for `*Error`: the outermost `*Error` on the chain. */
  function AsError(e: Err): (r: Option<Error>)
    decreases Depth(e)
    ensures r.None? <==> forall i | 0 <= i < |Chain(e)| :: !Chain(e)[i].Structured?
    ensures r.Some? ==> exists i | 0 <= i < |Chain(e)| ::
              Chain(e)[i] == Structured(r.value) && forall j | 0 <= j < i :: !Chain(e)[j].Structured?
  {
    match e
    case Plain(_, _) => None
    case Wrapped(_, cause) =>
      assert Chain(e) == [e] + Chain(cause);
      var r := AsError(cause);
      if r.Some? then
        var i :| 0 <= i < |Chain(cause)| && Chain(cause)[i] == Structured(r.value)
                 && forall j | 0 <= j < i :: !Chain(cause)[j].Structured?;
        assert Chain(e)[i + 1] == Structured(r.value);
        r
      else
        r
    case Structured(x) => Some(x)
  }

  // ---------------------------------------------------------------------
  // Functional options: `Option func(*Error)`, as the field assignments the
  // library's callers make.

  datatype ErrOption =
    | SetInternal(cause: Err)
    | SetExposeInternal(expose: bool)
    | SetSafeMessage(safe: string)
    | SetLogDetails(details: seq<Any>)
    | SetUserDetails(user: Option<Any>)
    | SetDomain(name: string)
    | SetMarkers(marks: seq<Err>)

  datatype Field =
    InternalField | ExposeField | SafeMessageField | LogDetailsField | UserDetailsField | DomainField | MarkersField

  function FieldOf(o: ErrOption): Field {
    match o
    case SetInternal(_) => InternalField
    case SetExposeInternal(_) => ExposeField
    case SetSafeMessage(_) => SafeMessageField
    case SetLogDetails(_) => LogDetailsField
    case SetUserDetails(_) => UserDetailsField
    case SetDomain(_) => DomainField
    case SetMarkers(_) => MarkersField
  }

  /** `a` and `b` hold the same value in field `f`. */
  predicate Agree(a: Error, b: Error, f: Field) {
    match f
    case InternalField => a.internal == b.internal
    case ExposeField => a.exposeInternal == b.exposeInternal
    case SafeMessageField => a.safeMessage == b.safeMessage
    case LogDetailsField => a.logDetails == b.logDetails
    case UserDetailsField => a.userDetails == b.userDetails
    case DomainField => a.domain == b.domain
    case MarkersField => a.markers == b.markers
  }

  /** `e` holds the value that `o` assigns. */
  predicate Assigned(e: Error, o: ErrOption) {
    match o
    case SetInternal(c) => e.internal == c
    case SetExposeInternal(b) => e.exposeInternal == b
    case SetSafeMessage(s) => e.safeMessage == s
    case SetLogDetails(d) => e.logDetails == d
    case SetUserDetails(u) => e.userDetails == u
    case SetDomain(d) => e.domain == d
    case SetMarkers(m) => e.markers == m
  }

  /** Running one option: it assigns its own field and leaves every other alone. */
  function Apply(e: Error, o: ErrOption): (r: Error)
    ensures Assigned(r, o)
    ensures forall f | f != FieldOf(o) :: Agree(r, e, f)
  {
    match o
    case SetInternal(c) => e.(internal := c)
    case SetExposeInternal(b) => e.(exposeInternal := b)
    case SetSafeMessage(s) => e.(safeMessage := s)
    case SetLogDetails(d) => e.(logDetails := d)
    case SetUserDetails(u) => e.(userDetails := u)
    case SetDomain(d) => e.(domain := d)
    case SetMarkers(m) => e.(markers := m)
  }

  /** `for _, opt := range opts { opt(e) }`. */
  function ApplyAll(e: Error, opts: seq<ErrOption>): Error
    decreases |opts|
  {
    if opts == [] then e else ApplyAll(Apply(e, opts[0]), opts[1..])
  }

  /** The value an option writes does not depend on the record it writes into. */
  lemma ApplySameValue(x: Error, y: Error, o: ErrOption)
    ensures Agree(Apply(x, o), Apply(y, o), FieldOf(o))
  {
  }

  predicate NoneSets(opts: seq<ErrOption>, f: Field) {
    forall i | 0 <= i < |opts| :: FieldOf(opts[i]) != f
  }

  /** Last writer wins: field `f` of `r` holds the value of the last option in
      `opts` that sets `f`, or `init`'s value when no option sets it. */
  ghost predicate Resolved(init: Error, opts: seq<ErrOption>, r: Error, f: Field) {
    || (NoneSets(opts, f) && Agree(r, init, f))
    || (exists i | 0 <= i < |opts| ::
          FieldOf(opts[i]) == f && NoneSets(opts[i + 1..], f) && Agree(r, Apply(init, opts[i]), f))
  }

  lemma {:induction false} ApplyAllAppend(e: Error, a: seq<ErrOption>, b: seq<ErrOption>)
    decreases |a|
    ensures ApplyAll(e, a + b) == ApplyAll(ApplyAll(e, a), b)
  {
    if a == [] {
      assert a + b == b;
    } else {
      assert (a + b)[0] == a[0];
      assert (a + b)[1..] == a[1..] + b;
      ApplyAllAppend(Apply(e, a[0]), a[1..], b);
    }
  }

  /** An option appended last decides its own field. */
  lemma ResolvedByLast(init: Error, pre: seq<ErrOption>, o: ErrOption, r: Error)
    requires Agree(r, Apply(init, o), FieldOf(o))
    ensures Resolved(init, pre + [o], r, FieldOf(o))
  {
    var opts := pre + [o];
    assert opts[|pre|] == o;
    assert opts[|pre| + 1..] == [];
  }

  /** An option appended last leaves the resolution of other fields as it was. */
  lemma ResolvedPastOther(init: Error, pre: seq<ErrOption>, o: ErrOption, r: Error, f: Field)
    requires FieldOf(o) != f
    requires Resolved(init, pre, r, f)
    ensures Resolved(init, pre + [o], r, f)
  {
    var opts := pre + [o];
    if NoneSets(pre, f) {
      assert NoneSets(opts, f);
    } else {
      var i :| 0 <= i < |pre| && FieldOf(pre[i]) == f && NoneSets(pre[i + 1..], f)
               && Agree(r, Apply(init, pre[i]), f);
      assert opts[i + 1..] == pre[i + 1..] + [o];
      assert opts[i] == pre[i];
      assert NoneSets(opts[i + 1..], f);
    }
  }

  /** Options run in order, so every field ends up resolved by its last writer. */
  lemma {:induction false} ApplyAllResolves(init: Error, opts: seq<ErrOption>, f: Field)
    decreases |opts|
    ensures Resolved(init, opts, ApplyAll(init, opts), f)
  {
    if opts == [] {
      assert NoneSets(opts, f);
    } else {
      var pre, o := opts[..|opts| - 1], opts[|opts| - 1];
      assert opts == pre + [o];
      ApplyAllAppend(init, pre, [o]);
      var mid := ApplyAll(init, pre);
      var r := ApplyAll(init, opts);
      assert r == Apply(mid, o);
      if FieldOf(o) == f {
        ApplySameValue(mid, init, o);
        ResolvedByLast(init, pre, o, r);
      } else {
        ApplyAllResolves(init, pre, f);
        assert Agree(r, mid, f);
        ResolvedTransfer(init, pre, mid, r, f);
        ResolvedPastOther(init, pre, o, r, f);
      }
    }
  }

  lemma ApplyAllResolvesEvery(init: Error, opts: seq<ErrOption>)
    ensures forall f :: Resolved(init, opts, ApplyAll(init, opts), f)
  {
    forall f ensures Resolved(init, opts, ApplyAll(init, opts), f) {
      ApplyAllResolves(init, opts, f);
    }
  }

  /** Resolution of field `f` only looks at field `f` of the result. */
  lemma ResolvedTransfer(init: Error, opts: seq<ErrOption>, a: Error, b: Error, f: Field)
    requires Resolved(init, opts, a, f) && Agree(a, b, f)
    ensures Resolved(init, opts, b, f)
  {
    if !NoneSets(opts, f) {
      var i :| 0 <= i < |opts| && FieldOf(opts[i]) == f && NoneSets(opts[i + 1..], f)
               && Agree(a, Apply(init, opts[i]), f);
      assert Agree(b, Apply(init, opts[i]), f);
    }
  }

  /** A field no option sets keeps its initial value. */
  lemma ApplyAllFrame(init: Error, opts: seq<ErrOption>, f: Field)
    requires NoneSets(opts, f)
    ensures Agree(ApplyAll(init, opts), init, f)
  {
    ApplyAllResolves(init, opts, f);
  }

  lemma ApplyAllFrameIf(init: Error, opts: seq<ErrOption>, f: Field)
    ensures NoneSets(opts, f) ==> Agree(ApplyAll(init, opts), init, f)
  {
    if NoneSets(opts, f) {
      ApplyAllFrame(init, opts, f);
    }
  }

  lemma ApplyAllFrameEvery(init: Error, opts: seq<ErrOption>)
    ensures forall f | NoneSets(opts, f) :: Agree(ApplyAll(init, opts), init, f)
  {
    forall f | NoneSets(opts, f)
      ensures Agree(ApplyAll(init, opts), init, f)
    {
      ApplyAllFrame(init, opts, f);
    }
  }

  /** A record with the given cause and every other field at its zero value. */
  function Fresh(internal: Err): Error {
    Error(internal, false, "", [], None, "", [])
  }

  /** `New(msg, opts...)`: `Internal` is a fresh `errors.New(msg)` (identity `id`),
      and the options run afterwards, in order. */
  function New(id: nat, msg: string, opts: seq<ErrOption>): (r: Err)
    ensures r.Structured?
    ensures forall f :: Resolved(Fresh(Plain(id, msg)), opts, r.e, f)
    ensures NoneSets(opts, InternalField) ==> Message(r) == msg && r.e.internal == Plain(id, msg)
    ensures opts == [] ==>
      && r.e.logDetails == [] && r.e.markers == []
      && !r.e.exposeInternal && r.e.safeMessage == "" && r.e.domain == "" && r.e.userDetails.None?
  {
    ApplyAllResolvesEvery(Fresh(Plain(id, msg)), opts);
    ApplyAllFrameIf(Fresh(Plain(id, msg)), opts, InternalField);
    Structured(ApplyAll(Fresh(Plain(id, msg)), opts))
  }

  /** An option that sets `Internal` overrides the message `New` was given. */
  lemma NewInternalOptionWins(id: nat, msg: string, pre: seq<ErrOption>, cause: Err, post: seq<ErrOption>)
    requires NoneSets(post, InternalField)
    ensures New(id, msg, pre + [SetInternal(cause)] + post).e.internal == cause
    ensures Message(New(id, msg, pre + [SetInternal(cause)] + post)) == Message(cause)
  {
    var init := Fresh(Plain(id, msg));
    var opts := pre + [SetInternal(cause)] + post;
    ApplyAllAppend(init, pre + [SetInternal(cause)], post);
    ApplyAllAppend(init, pre, [SetInternal(cause)]);
    ApplyAllFrame(ApplyAll(init, pre + [SetInternal(cause)]), post, InternalField);
  }

  // ---------------------------------------------------------------------
  // Newf: the argument list mixes options with format arguments.

  /** One argument of `Newf`'s `args ...any`, tagged by its dynamic type. */
  datatype Arg = OptionArg(opt: ErrOption) | ErrorArg(err: Err) | ValueArg(value: Any)

  /** The arguments whose dynamic type is `Option`, in argument order. */
  function OptionsOf(args: seq<Arg>): (r: seq<ErrOption>)
    ensures |r| <= |args|
  {
    if args == [] then []
    else (if args[0].OptionArg? then [args[0].opt] else []) + OptionsOf(args[1..])
  }

  /** The remaining arguments, the ones handed to the formatter, in argument order. */
  function FormatArgs(args: seq<Arg>): (r: seq<Arg>)
    ensures |r| <= |args|
  {
    if args == [] then []
    else (if args[0].OptionArg? then [] else [args[0]]) + FormatArgs(args[1..])
  }

  /** The options are exactly the arguments whose dynamic type is `Option`,
      and the format arguments exactly the others. */
  lemma {:induction false} ArgsMembers(args: seq<Arg>)
    ensures forall o :: o in OptionsOf(args) <==> OptionArg(o) in args
    ensures forall a :: a in FormatArgs(args) <==> a in args && !a.OptionArg?
  {
    if args != [] {
      ArgsMembers(args[1..]);
      assert args == [args[0]] + args[1..];
    }
  }

  /** Every argument goes to exactly one of the two filters. */
  lemma {:induction false} ArgsSplit(args: seq<Arg>)
    ensures |OptionsOf(args)| + |FormatArgs(args)| == |args|
  {
    if args != [] {
      ArgsSplit(args[1..]);
    }
  }

  /** Both filters keep argument order: they distribute over concatenation. */
  lemma {:induction false} ArgsKeepOrder(a: seq<Arg>, b: seq<Arg>)
    decreases |a|
    ensures OptionsOf(a + b) == OptionsOf(a) + OptionsOf(b)
    ensures FormatArgs(a + b) == FormatArgs(a) + FormatArgs(b)
  {
    if a == [] {
      assert a + b == b;
    } else {
      var ab := a + b;
      assert ab[0] == a[0];
      assert ab[1..] == a[1..] + b;
      ArgsKeepOrder(a[1..], b);
      assert OptionsOf(ab) == (if a[0].OptionArg? then [a[0].opt] else []) + OptionsOf(a[1..] + b);
      assert FormatArgs(ab) == (if a[0].OptionArg? then [] else [a[0]]) + FormatArgs(a[1..] + b);
    }
  }

  /** What `Internal` holds while the options of `Newf` run: nil in the source,
      overwritten once they are done. */
  const Unset: Err := Plain(0, "")

  lemma NewfResolves(opts: seq<ErrOption>, configured: Error, r: Error)
    requires configured == ApplyAll(Fresh(Unset), opts)
    requires r == configured.(internal := r.internal)
    ensures forall f | f != InternalField :: Resolved(Fresh(Unset), opts, r, f)
  {
    forall f | f != InternalField
      ensures Resolved(Fresh(Unset), opts, r, f)
    {
      ApplyAllResolves(Fresh(Unset), opts, f);
      ResolvedTransfer(Fresh(Unset), opts, configured, r, f);
    }
  }

  /** `Newf(format, args...)`: options are pulled out of `args` and run in
      argument order; the rest go, in order, to the formatter `errorf`
      (`fmt.Errorf`, kept abstract), whose result becomes `Internal` after the
      options have run, so it replaces whatever an option put there. */
  function Newf(format: string, args: seq<Arg>, errorf: (string, seq<Arg>) -> Err): (r: Err)
    ensures r.Structured?
    ensures r.e.internal == errorf(format, FormatArgs(args))
    ensures forall f | f != InternalField :: Resolved(Fresh(Unset), OptionsOf(args), r.e, f)
    ensures forall a | a in FormatArgs(args) :: !a.OptionArg?
  {
    var configured := ApplyAll(Fresh(Unset), OptionsOf(args));
    var r := configured.(internal := errorf(format, FormatArgs(args)));
    NewfResolves(OptionsOf(args), configured, r);
    ArgsMembers(args);
    Structured(r)
  }
}

=== FILE: factory.dfy ===
/** The fluent builder (factory.go). Every builder step returns a changed
    copy; `Err` turns the accumulated fields into an `*Error`. Visibility is
    private by default, turned public by any marker that classifies below
    500, and locked by an explicit `Private` or `Public`. */
module Fluent {
  import opened Values
  import opened Errs
  import Log
  import Http

  /** The parts of a builder a step may change. */
  datatype Part = InternalPart | SafeMessagePart | LogDetailsPart | UserDetailsPart | DomainPart | MarkersPart | VisibilityPart

  /** The builder state: `private` is the effective visibility, `forced` is
      `None` while visibility is still inferred and `Some(v)` once it is locked. */
  datatype Factory = Factory(
    internal: Option<Err>,
    safeMessage: string,
    logDetails: seq<Any>,
    userDetails: Option<Any>,
    domain: string,
    markers: seq<Err>,
    private: bool,
    forced: Option<bool>)
  {
    /** This builder and `b` agree on every part not in `changed`. */
    predicate SameOutside(b: Factory, changed: set<Part>) {
      && (InternalPart !in changed ==> internal == b.internal)
      && (SafeMessagePart !in changed ==> safeMessage == b.safeMessage)
      && (LogDetailsPart !in changed ==> logDetails == b.logDetails)
      && (UserDetailsPart !in changed ==> userDetails == b.userDetails)
      && (DomainPart !in changed ==> domain == b.domain)
      && (MarkersPart !in changed ==> markers == b.markers)
      && (VisibilityPart !in changed ==> private == b.private && forced == b.forced)
    }

    /** `Message(fstr, args...)`, given the error `fmt.Errorf` builds. */
    function Message(cause: Err): (r: Factory)
      ensures r.internal == Some(cause)
      ensures r.SameOutside(this, {InternalPart})
    {
      this.(internal := Some(cause))
    }

    /** `UserMessage(fstr, args...)`, given the text `fmt.Sprintf` builds. */
    function UserMessage(text: string): (r: Factory)
      ensures r.safeMessage == text
      ensures r.SameOutside(this, {SafeMessagePart})
    {
      this.(safeMessage := text)
    }

    /** `Logs(v)`: appends to the log details. */
    function Logs(v: seq<Any>): (r: Factory)
      ensures |r.logDetails| == |logDetails| + |v|
      ensures r.logDetails[..|logDetails|] == logDetails && r.logDetails[|logDetails|..] == v
      ensures r.SameOutside(this, {LogDetailsPart})
    {
      this.(logDetails := logDetails + v)
    }

    /** `Mark(errs...)`: appends the markers and, unless visibility is locked,
        turns the builder public when any of them classifies below 500. */
    function Mark(errs: seq<Err>): (r: Factory)
      ensures |r.markers| == |markers| + |errs|
      ensures r.markers[..|markers|] == markers && r.markers[|markers|..] == errs
      ensures r.forced == forced
      ensures forced.Some? ==> r.private == private
      ensures forced.None? ==> (r.private <==> private && AllServerSide(errs))
      ensures r.SameOutside(this, {MarkersPart, VisibilityPart})
    {
      var marked := this.(markers := markers + errs);
      if forced.Some? then marked
      else marked.(private := InferPrivate(private, errs))
    }

    /** `Private()`: locks visibility to private. */
    function Private(): (r: Factory)
      ensures r.private && r.forced == Some(true)
      ensures r.SameOutside(this, {VisibilityPart})
    {
      this.(private := true, forced := Some(true))
    }

    /** `Public()`: locks visibility to public. */
    function Public(): (r: Factory)
      ensures !r.private && r.forced == Some(false)
      ensures r.SameOutside(this, {VisibilityPart})
    {
      this.(private := false, forced := Some(false))
    }

    /** `Domain(d)`. */
    function Domain(d: string): (r: Factory)
      ensures r.domain == d
      ensures r.SameOutside(this, {DomainPart})
    {
      this.(domain := d)
    }

    /** `Err()`: the `*Error` built from the fields; a builder without a
        message gets the fresh error `unknownId` with text "unknown error".
        The internal message is exposed exactly when the builder is public. */
    function Err(unknownId: nat): (r: Error)
      ensures internal.Some? ==> r.internal == internal.value
      ensures internal.None? ==> r.internal == Plain(unknownId, "unknown error")
      ensures r.exposeInternal <==> !private
      ensures r.safeMessage == safeMessage && r.logDetails == logDetails && r.userDetails == userDetails
      ensures r.domain == domain && r.markers == markers
    {
      Error(internal.GetOr(Plain(unknownId, "unknown error")), !private,
            safeMessage, logDetails, userDetails, domain, markers)
    }
  }

  /** Every error of `errs` classifies to 500 or above. */
  predicate AllServerSide(errs: seq<Err>) {
    forall i | 0 <= i < |errs| :: Http.GetHTTPCode(Some(errs[i])) >= 500
  }

  lemma ServerSideAppend(a: seq<Err>, b: seq<Err>)
    ensures AllServerSide(a + b) <==> AllServerSide(a) && AllServerSide(b)
  {
    assert forall k | 0 <= k < |a| :: (a + b)[k] == a[k];
    assert forall k | 0 <= k < |b| :: (a + b)[|a| + k] == b[k];
  }

  /** The loop of `Mark`: visibility becomes public at the first marker whose
      code is below 500 and stays so. */
  function InferPrivate(p: bool, errs: seq<Err>): (r: bool)
    decreases |errs|
    ensures r <==> p && AllServerSide(errs)
  {
    if errs == [] then p
    else
      var p' := if Http.GetHTTPCode(Some(errs[0])) < 500 then false else p;
      assert forall i | 1 <= i < |errs| :: errs[i] == errs[1..][i - 1];
      InferPrivate(p', errs[1..])
  }

  /** `F()`: an empty builder, private by default and not locked. */
  function F(): (f: Factory)
    ensures f.private && f.forced.None?
    ensures f.internal.None? && f.userDetails.None?
    ensures f.logDetails == [] && f.markers == []
    ensures f.safeMessage == "" && f.domain == ""
  {
    Factory(None, "", [], None, "", [], true, None)
  }

  /** One builder step. */
  datatype Call =
    | CallMessage(cause: Err)
    | CallUserMessage(text: string)
    | CallLogs(v: seq<Any>)
    | CallMark(errs: seq<Err>)
    | CallPrivate
    | CallPublic
    | CallDomain(d: string)

  function Step(f: Factory, c: Call): Factory {
    match c
    case CallMessage(cause) => f.Message(cause)
    case CallUserMessage(text) => f.UserMessage(text)
    case CallLogs(v) => f.Logs(v)
    case CallMark(errs) => f.Mark(errs)
    case CallPrivate => f.Private()
    case CallPublic => f.Public()
    case CallDomain(d) => f.Domain(d)
  }

  /** A chain of builder calls, first call first. */
  function Run(f: Factory, calls: seq<Call>): (r: Factory)
    decreases |calls|
  {
    if calls == [] then f else Run(Step(f, calls[0]), calls[1..])
  }

  predicate Explicit(c: Call) {
    c.CallPrivate? || c.CallPublic?
  }

  /** The markers one call adds. */
  function Added(c: Call): seq<Err> {
    if c.CallMark? then c.errs else []
  }

  /** All markers the calls add, in order. */
  function MarkedBy(calls: seq<Call>): seq<Err>
    decreases |calls|
  {
    if calls == [] then [] else Added(calls[0]) + MarkedBy(calls[1..])
  }

  /** One call appends its markers to the builder's. */
  lemma StepMarkers(f: Factory, c: Call)
    ensures Step(f, c).markers == f.markers + Added(c)
  {
    var g := Step(f, c);
    if c.CallMark? {
      assert g.markers == g.markers[..|f.markers|] + g.markers[|f.markers|..];
    } else {
      assert f.markers + [] == f.markers;
    }
  }

  lemma {:induction false} RunAppend(f: Factory, a: seq<Call>, b: seq<Call>)
    decreases |a|
    ensures Run(f, a + b) == Run(Run(f, a), b)
  {
    if a == [] {
      assert a + b == b;
    } else {
      assert (a + b)[1..] == a[1..] + b;
      RunAppend(Step(f, a[0]), a[1..], b);
    }
  }

  lemma Regroup(a: seq<Err>, b: seq<Err>, c: seq<Err>, ab: seq<Err>, abc: seq<Err>)
    requires ab == a + b && abc == ab + c
    ensures abc == a + (b + c)
  {
  }

  /** Markers only accumulate: every `Mark` argument is appended in call order. */
  lemma {:induction false} MarkersAccumulate(f: Factory, calls: seq<Call>)
    decreases |calls|
    ensures Run(f, calls).markers == f.markers + MarkedBy(calls)
  {
    if calls == [] {
      assert f.markers + [] == f.markers;
    } else {
      var g := Step(f, calls[0]);
      MarkersAccumulate(g, calls[1..]);
      StepMarkers(f, calls[0]);
      Regroup(f.markers, Added(calls[0]), MarkedBy(calls[1..]), g.markers, Run(g, calls[1..]).markers);
    }
  }

  /** No builder step sets the user details: they keep their starting value. */
  lemma {:induction false} UserDetailsNeverSet(f: Factory, calls: seq<Call>)
    decreases |calls|
    ensures Run(f, calls).userDetails == f.userDetails
  {
    if calls != [] {
      UserDetailsNeverSet(Step(f, calls[0]), calls[1..]);
    }
  }

  /** Once visibility is locked, only `Private`/`Public` change it. */
  lemma {:induction false} LockedStaysLocked(f: Factory, calls: seq<Call>)
    requires f.forced.Some?
    requires forall i | 0 <= i < |calls| :: !Explicit(calls[i])
    decreases |calls|
    ensures Run(f, calls).private == f.private && Run(f, calls).forced == f.forced
  {
    if calls != [] {
      LockedStaysLocked(Step(f, calls[0]), calls[1..]);
    }
  }

  /** The last explicit `Private`/`Public` decides visibility, wherever the
      `Mark` calls stand before or after it. */
  lemma LastExplicitWins(f: Factory, calls: seq<Call>, i: int)
    requires 0 <= i < |calls| && Explicit(calls[i])
    requires forall j | i < j < |calls| :: !Explicit(calls[j])
    ensures Run(f, calls).private <==> calls[i].CallPrivate?
  {
    var pre, post := calls[..i], calls[i + 1..];
    assert calls == (pre + [calls[i]]) + post;
    RunAppend(f, pre + [calls[i]], post);
    RunAppend(f, pre, [calls[i]]);
    var h := Run(f, pre);
    RunOne(h, calls[i]);
    ExplicitStep(h, calls[i]);
    assert forall j | 0 <= j < |post| :: post[j] == calls[i + 1 + j];
    LockedStaysLocked(Step(h, calls[i]), post);
  }

  lemma RunOne(f: Factory, c: Call)
    ensures Run(f, [c]) == Step(f, c)
  {
    assert [c][1..] == [];
  }

  lemma ExplicitStep(f: Factory, c: Call)
    requires Explicit(c)
    ensures Step(f, c).forced.Some?
    ensures Step(f, c).private <==> c.CallPrivate?
  {
  }

  /** Without an explicit call visibility is inferred: an unlocked builder stays
      private exactly when it was and every marker added has a code of 500 or more. */
  lemma {:induction false} InferredVisibility(f: Factory, calls: seq<Call>)
    requires f.forced.None?
    requires forall i | 0 <= i < |calls| :: !Explicit(calls[i])
    decreases |calls|
    ensures Run(f, calls).forced.None?
    ensures Run(f, calls).private <==> f.private && AllServerSide(MarkedBy(calls))
  {
    if calls != [] {
      var g := Step(f, calls[0]);
      var added := Added(calls[0]);
      assert g.private <==> f.private && AllServerSide(added);
      InferredVisibility(g, calls[1..]);
      ServerSideAppend(added, MarkedBy(calls[1..]));
    }
  }

  /** Every marker given to the builder is-a match of the built error. */
  lemma BuiltErrorIsMarked(f: Factory, unknownId: nat, m: Err)
    requires m in f.markers
    ensures Is(Structured(f.Err(unknownId)), m)
  {
  }

  /** An empty builder builds a private error with the "unknown error" cause. */
  lemma EmptyBuilder(unknownId: nat)
    ensures F().Err(unknownId).internal == Plain(unknownId, "unknown error")
    ensures Errs.Message(Structured(F().Err(unknownId))) == "unknown error"
    ensures !F().Err(unknownId).exposeInternal
    ensures F().Err(unknownId).markers == [] && F().Err(unknownId).userDetails.None?
  {
  }

  /** Marking with a 4xx sentinel makes the error public; an explicit
      `Private`, before or after the marker, keeps it private; a 5xx marker
      leaves the default in place. */
  lemma VisibilityScenarios(unknownId: nat)
    ensures F().Mark([RateLimited]).Err(unknownId).exposeInternal
    ensures !F().Private().Mark([RateLimited]).Err(unknownId).exposeInternal
    ensures !F().Mark([RateLimited]).Private().Err(unknownId).exposeInternal
    ensures !F().Mark([RemoteServiceErr]).Err(unknownId).exposeInternal
    ensures F().Mark([RemoteServiceErr, NotFound]).Err(unknownId).exposeInternal
  {
    Http.SentinelCodes();
    assert Http.Priority[3].refs[0] == Some(RateLimited);
    assert Http.Priority[2].refs[0] == Some(RemoteServiceErr);
    assert Http.Priority[8].refs[0] == Some(NotFound);
    assert [RemoteServiceErr, NotFound][1] == NotFound;
  }

  /** A public builder without a user message echoes its cause to the client:
      the JSON body of `HandleHTTP` carries the internal message. */
  lemma PublicErrorEchoesCause(req: Http.Request, cause: Err, unknownId: nat, current: Log.Logger)
    ensures var e := F().Message(cause).Public().Err(unknownId);
            var r := Http.HandleHTTP(req, Some(Structured(e)), [], current, None, None);
            var status := Http.GetHTTPCode(Some(Structured(e)));
            r.response == Http.Json(status, "application/json", Http.ErrorHTTPResponse(Errs.Message(cause), None))
  {
  }

  /** A private builder without a user message answers with the status text only. */
  lemma PrivateErrorHidesCause(req: Http.Request, cause: Err, unknownId: nat, current: Log.Logger)
    ensures var e := F().Message(cause).Err(unknownId);
            var r := Http.HandleHTTP(req, Some(Structured(e)), [], current, None, None);
            var status := Http.GetHTTPCode(Some(Structured(e)));
            r.response == Http.Json(status, "application/json", Http.ErrorHTTPResponse(Http.StatusText(status), None))
  {
  }
}

=== FILE: helpers.dfy ===
/** `IsAny` (helpers.go): is-a against any of several references. */
module Helpers {
  import opened Values
  import opened Errs

  /** Loops over `references`, returning true at the first `errors.Is` match. */
  function IsAny(err: Option<Err>, references: seq<Option<Err>>): (r: bool)
    ensures r <==> exists i | 0 <= i < |references| :: GoIs(err, references[i])
    ensures references == [] ==> !r
  {
    if references == [] then false
    else if GoIs(err, references[0]) then true
    else IsAny(err, references[1..])
  }

  /** Only which references are present matters, not their order or count. */
  lemma IsAnyOrderIndependent(err: Option<Err>, a: seq<Option<Err>>, b: seq<Option<Err>>)
    requires forall x :: x in a <==> x in b
    ensures IsAny(err, a) == IsAny(err, b)
  {
    if IsAny(err, a) {
      var i :| 0 <= i < |a| && GoIs(err, a[i]);
      assert a[i] in b;
    }
    if IsAny(err, b) {
      var i :| 0 <= i < |b| && GoIs(err, b[i]);
      assert b[i] in a;
    }
  }

  /** Adding references, before or after, can only turn false into true. */
  lemma IsAnyMonotone(err: Option<Err>, a: seq<Option<Err>>, b: seq<Option<Err>>)
    ensures IsAny(err, a) ==> IsAny(err, a + b)
    ensures IsAny(err, a) ==> IsAny(err, b + a)
  {
    if IsAny(err, a) {
      var i :| 0 <= i < |a| && GoIs(err, a[i]);
      assert (a + b)[i] == a[i];
      assert (b + a)[|b| + i] == a[i];
    }
  }
}

=== FILE: http.dfy ===
/** Classification and HTTP rendering (http.go): the status-code table over
    the is-a relation, the log level of a status, and the decisions
    `HandleHTTP` takes — status, response body, content type, the `handled`
    result and the log calls it makes on the way. */
module Http {
  import opened Values
  import opened Errs
  import opened Helpers
  import opened Log
  import Compose

  /** The ten status codes classification can produce. */
  const Codes: set<int> := {400, 401, 403, 404, 409, 429, 500, 501, 502, 504}

  /** One row of the classification table: matching any of `refs` gives `status`. */
  datatype Rule = Rule(refs: seq<Option<Err>>, status: int)

  /** The rows in priority order; the first row that matches decides. */
  const Priority: seq<Rule> := [
    Rule([Some(NotImplemented)], 501),
    Rule([Some(DeadlineExceeded)], 504),
    Rule([Some(RemoteServiceErr)], 502),
    Rule([Some(RateLimited)], 429),
    Rule([Some(InvalidArgument), Some(MissingArgument), Some(OutOfRange)], 400),
    Rule([Some(PermissionDenied)], 403),
    Rule([Some(Unauthorized)], 401),
    Rule([Some(Exists), Some(Outdated)], 409),
    Rule([Some(NotFound)], 404)
  ]

  predicate RuleMatches(rule: Rule, err: Option<Err>) {
    IsAny(err, rule.refs)
  }

  /** Row `i` is the first row of `Priority` that `err` matches. */
  predicate FirstMatch(err: Option<Err>, i: int)
    requires 0 <= i < |Priority|
  {
    RuleMatches(Priority[i], err) && forall j | 0 <= j < i :: !RuleMatches(Priority[j], err)
  }

  /** `GetHTTPCode(err)`: the `switch` over the sentinels, 500 when none matches. */
  function GetHTTPCode(err: Option<Err>): (code: int)
    ensures code in Codes
  {
    if GoIs(err, Some(NotImplemented)) then 501
    else if GoIs(err, Some(DeadlineExceeded)) then 504
    else if GoIs(err, Some(RemoteServiceErr)) then 502
    else if GoIs(err, Some(RateLimited)) then 429
    else if IsAny(err, [Some(InvalidArgument), Some(MissingArgument), Some(OutOfRange)]) then 400
    else if GoIs(err, Some(PermissionDenied)) then 403
    else if GoIs(err, Some(Unauthorized)) then 401
    else if IsAny(err, [Some(Exists), Some(Outdated)]) then 409
    else if GoIs(err, Some(NotFound)) then 404
    else 500
  }

  /** Row `i` of `Priority` matches exactly when the `i`-th case of the switch does. */
  lemma RowsAreTheSwitch(err: Option<Err>)
    ensures RuleMatches(Priority[0], err) <==> GoIs(err, Some(NotImplemented))
    ensures RuleMatches(Priority[1], err) <==> GoIs(err, Some(DeadlineExceeded))
    ensures RuleMatches(Priority[2], err) <==> GoIs(err, Some(RemoteServiceErr))
    ensures RuleMatches(Priority[3], err) <==> GoIs(err, Some(RateLimited))
    ensures RuleMatches(Priority[4], err) <==> IsAny(err, [Some(InvalidArgument), Some(MissingArgument), Some(OutOfRange)])
    ensures RuleMatches(Priority[5], err) <==> GoIs(err, Some(PermissionDenied))
    ensures RuleMatches(Priority[6], err) <==> GoIs(err, Some(Unauthorized))
    ensures RuleMatches(Priority[7], err) <==> IsAny(err, [Some(Exists), Some(Outdated)])
    ensures RuleMatches(Priority[8], err) <==> GoIs(err, Some(NotFound))
  {
    SingleRow(err, NotImplemented, 501);
    SingleRow(err, DeadlineExceeded, 504);
    SingleRow(err, RemoteServiceErr, 502);
    SingleRow(err, RateLimited, 429);
    SingleRow(err, PermissionDenied, 403);
    SingleRow(err, Unauthorized, 401);
    SingleRow(err, NotFound, 404);
  }

  lemma SingleRow(err: Option<Err>, t: Err, status: int)
    ensures RuleMatches(Rule([Some(t)], status), err) <==> GoIs(err, Some(t))
  {
    assert [Some(t)][0] == Some(t);
  }

  /** The code is the status of the first row of `Priority` the error matches,
      and 500 when it matches none. */
  lemma GetHTTPCodeIsFirstMatch(err: Option<Err>)
    ensures forall i | 0 <= i < |Priority| && FirstMatch(err, i) :: GetHTTPCode(err) == Priority[i].status
    ensures (forall i | 0 <= i < |Priority| :: !RuleMatches(Priority[i], err)) ==> GetHTTPCode(err) == 500
  {
    RowsAreTheSwitch(err);
    forall i | 0 <= i < |Priority| && FirstMatch(err, i)
      ensures GetHTTPCode(err) == Priority[i].status
    {
      assert RuleMatches(Priority[i], err);
      assert forall j | 0 <= j < i :: !RuleMatches(Priority[j], err);
    }
    if forall i | 0 <= i < |Priority| :: !RuleMatches(Priority[i], err) {
      assert !RuleMatches(Priority[0], err) && !RuleMatches(Priority[1], err) && !RuleMatches(Priority[2], err);
      assert !RuleMatches(Priority[3], err) && !RuleMatches(Priority[4], err) && !RuleMatches(Priority[5], err);
      assert !RuleMatches(Priority[6], err) && !RuleMatches(Priority[7], err) && !RuleMatches(Priority[8], err);
    }
  }

  /** Precedence: when row `i` matches, the code comes from row `i` or an earlier one. */
  lemma EarlierRowsWin(err: Option<Err>, i: int)
    requires 0 <= i < |Priority| && RuleMatches(Priority[i], err)
    ensures exists k | 0 <= k <= i :: GetHTTPCode(err) == Priority[k].status && FirstMatch(err, k)
  {
    GetHTTPCodeIsFirstMatch(err);
    var k := FirstIndex(err, i);
    assert FirstMatch(err, k);
  }

  /** The first matching row at or before `i`. */
  function FirstIndex(err: Option<Err>, i: int): (k: int)
    requires 0 <= i < |Priority| && RuleMatches(Priority[i], err)
    ensures 0 <= k <= i && FirstMatch(err, k)
    decreases i
  {
    if forall j | 0 <= j < i :: !RuleMatches(Priority[j], err) then i
    else
      var j :| 0 <= j < i && RuleMatches(Priority[j], err);
      FirstIndex(err, j)
  }

  /** Each canonical sentinel, as itself, gets the status of its own row, and
      nil gets 500. */
  lemma SentinelCodes()
    ensures forall i, k | 0 <= i < |Priority| && 0 <= k < |Priority[i].refs| ::
              GetHTTPCode(Priority[i].refs[k]) == Priority[i].status
    ensures GetHTTPCode(None) == 500
  {
    forall i, k | 0 <= i < |Priority| && 0 <= k < |Priority[i].refs|
      ensures GetHTTPCode(Priority[i].refs[k]) == Priority[i].status
    {
      SentinelCode(i, k);
    }
  }

  /** The row of `Priority` whose references include the sentinel with this id. */
  function RowOf(id: nat): int {
    match id
    case 1 => 0
    case 12 => 1
    case 2 => 2
    case 3 => 3
    case 4 => 4
    case 5 => 4
    case 6 => 4
    case 7 => 5
    case 8 => 6
    case 9 => 7
    case 11 => 7
    case 10 => 8
    case _ => -1
  }

  /** Every reference of the table is a sentinel, and no sentinel appears in two rows. */
  lemma RefsHaveOneRow()
    ensures forall i, k | 0 <= i < |Priority| && 0 <= k < |Priority[i].refs| ::
              Priority[i].refs[k].Some? && Priority[i].refs[k].value.Plain? && RowOf(Priority[i].refs[k].value.id) == i
  {
  }

  lemma SentinelCode(i: int, k: int)
    requires 0 <= i < |Priority| && 0 <= k < |Priority[i].refs|
    ensures GetHTTPCode(Priority[i].refs[k]) == Priority[i].status
  {
    var t := Priority[i].refs[k];
    RefsHaveOneRow();
    assert FirstMatch(t, i) by {
      assert GoIs(t, Priority[i].refs[k]);
      forall j | 0 <= j < i
        ensures !RuleMatches(Priority[j], t)
      {
        if RuleMatches(Priority[j], t) {
          var m :| 0 <= m < |Priority[j].refs| && GoIs(t, Priority[j].refs[m]);
          PlainIsEquality(t.value, Priority[j].refs[m].value);
          assert false;
        }
      }
    }
    GetHTTPCodeIsFirstMatch(t);
  }

  /** Precedence over the table order: an error that is-a both Unauthorized
      and NotFound is a 401, whichever marker came first. */
  lemma UnauthorizedBeforeNotFound(base: Err, first: Err, second: Err)
    requires base.Plain? && base !in Sentinels && base != DeadlineExceeded
    requires (first, second) == (NotFound, Unauthorized) || (first, second) == (Unauthorized, NotFound)
    ensures GetHTTPCode(Compose.Mark(Compose.Mark(Some(base), first, []), second, [])) == 401
  {
    var err := Compose.Mark(Compose.Mark(Some(base), first, []), second, []);
    var m := err.value;
    Compose.MarkedTwiceIs(base, first, second);
    assert !Is(m, NotImplemented) && !Is(m, DeadlineExceeded);
    assert !Is(m, RemoteServiceErr) && !Is(m, RateLimited);
    assert !Is(m, InvalidArgument) && !Is(m, MissingArgument) && !Is(m, OutOfRange);
    assert !Is(m, PermissionDenied) && Is(m, Unauthorized);
    FirstMatchIsUnauthorized(err);
  }

  /** An error that is-a Unauthorized and none of the sentinels of the rows
      before it is a 401. */
  lemma FirstMatchIsUnauthorized(err: Option<Err>)
    requires !GoIs(err, Some(NotImplemented)) && !GoIs(err, Some(DeadlineExceeded))
    requires !GoIs(err, Some(RemoteServiceErr)) && !GoIs(err, Some(RateLimited))
    requires !GoIs(err, Some(InvalidArgument)) && !GoIs(err, Some(MissingArgument)) && !GoIs(err, Some(OutOfRange))
    requires !GoIs(err, Some(PermissionDenied)) && GoIs(err, Some(Unauthorized))
    ensures GetHTTPCode(err) == 401
  {
  }

  /** Precedence over the table order: an error that is-a both RateLimited
      and InvalidArgument is a 429, whichever marker came first. */
  lemma RateLimitedBeforeInvalidArgument(base: Err, first: Err, second: Err)
    requires base.Plain? && base !in Sentinels && base != DeadlineExceeded
    requires (first, second) == (InvalidArgument, RateLimited) || (first, second) == (RateLimited, InvalidArgument)
    ensures GetHTTPCode(Compose.Mark(Compose.Mark(Some(base), first, []), second, [])) == 429
  {
    var err := Compose.Mark(Compose.Mark(Some(base), first, []), second, []);
    Compose.MarkedTwiceIs(base, first, second);
    assert !GoIs(err, Some(NotImplemented)) && !GoIs(err, Some(DeadlineExceeded));
    assert !GoIs(err, Some(RemoteServiceErr)) && GoIs(err, Some(RateLimited));
  }

  /** `HTTPGetLogLevel(status)`: error for 5xx and above, warn for 401 and 403,
      debug for everything else. */
  function HTTPGetLogLevel(status: int): (level: int)
    ensures level == LevelError <==> status >= 500
    ensures level == LevelWarn <==> status == 401 || status == 403
    ensures level == LevelDebug <==> status < 500 && status != 401 && status != 403
  {
    if status >= 500 then LevelError
    else if status == 401 || status == 403 then LevelWarn
    else LevelDebug
  }

  /** `http.StatusText` on the ten codes classification produces. */
  function StatusText(code: int): (text: string)
    ensures code in Codes <==> text != ""
  {
    match code
    case 400 => "Bad Request"
    case 401 => "Unauthorized"
    case 403 => "Forbidden"
    case 404 => "Not Found"
    case 409 => "Conflict"
    case 429 => "Too Many Requests"
    case 500 => "Internal Server Error"
    case 501 => "Not Implemented"
    case 502 => "Bad Gateway"
    case 504 => "Gateway Timeout"
    case _ => ""
  }

  /** `ErrorHTTPResponse`: the JSON body; `details` is omitted when nil. */
  datatype ErrorHTTPResponse = ErrorHTTPResponse(error: string, details: Option<Any>)

  /** The parts of the request `HandleHTTP` reads. */
  datatype Request = Request(httpMethod: string, path: string, remoteAddr: string)

  /** What the response writer is given. */
  datatype Response =
    | NoResponse
      /** `http.Error(w, text, status)`: a plain-text body. */
    | PlainText(status: int, text: string)
      /** Only `WriteHeader(status)`, no body. */
    | HeaderOnly(status: int)
      /** Content type header, status line and the JSON-encoded body. */
    | Json(status: int, contentType: string, body: ErrorHTTPResponse)

  /** Everything `HandleHTTP` decides: its result, the response and the log calls, in order. */
  datatype Outcome = Outcome(handled: bool, response: Response, logs: seq<LogCall>)

  /** The request attributes every `HandleHTTP` log call carries. */
  function HttpAttrs(req: Request, status: int): seq<Any> {
    [Str("method"), Str(req.httpMethod), Str("path"), Str(req.path),
     Str("status"), Int(status), Str("remote_addr"), Str(req.remoteAddr)]
  }

  /** The message of the JSON body: the safe message if there is one, else the
      internal message if it may be exposed, else the generic status text. */
  function ResponseMessage(e: Error, status: int): (m: string)
    ensures e.safeMessage != "" ==> m == e.safeMessage
    ensures e.safeMessage == "" && e.exposeInternal ==> m == Message(e.internal)
    ensures e.safeMessage == "" && !e.exposeInternal ==> m == StatusText(status)
  {
    if e.safeMessage != "" then e.safeMessage
    else if e.exposeInternal then Message(e.internal)
    else StatusText(status)
  }

  /** The configuration `HandleHTTP` builds for its own log calls: it starts
      from the logger that is the process default at the time of the call
      (`current`) and the level of the status, then runs the caller's options. */
  function HandlerConfig(current: Logger, status: int, opts: seq<LogErrOption>): (c: LogErrOptions)
    ensures Untouched(opts, LoggerField) ==> c.logger == current
    ensures Untouched(opts, LevelField) ==> c.level == HTTPGetLogLevel(status)
  {
    Configure(LogErrOptions(current, HTTPGetLogLevel(status), []), opts)
  }

  /** `HandleHTTP(ctx, w, r, err, opts...)`. `current` is what `slog.Default()`
      returns during the call, which need not be the logger `LogErr`'s own
      defaults captured when the package was initialised. `marshalFailure`
      and `writeFailure` are the error texts of `json.Marshal` and `w.Write`
      when those fail. */
  function HandleHTTP(
    req: Request, err: Option<Err>, opts: seq<LogErrOption>, current: Logger,
    marshalFailure: Option<string>, writeFailure: Option<string>): (r: Outcome)
    ensures err.None? <==> r.logs == []
    ensures err.None? ==> !r.handled && r.response == NoResponse
    ensures err.Some? ==> (r.handled <==> AsError(err.value).Some?)
    ensures err.Some? ==>
      var status := GetHTTPCode(err);
      && |r.logs| >= 2
      && r.logs[0] == LogErr(err, opts + [UseLoggerAttrs(HttpAttrs(req, status))]).value
    ensures err.Some? && AsError(err.value).None? ==>
      var status := GetHTTPCode(err);
      var config := HandlerConfig(current, status, opts);
      && r.response == PlainText(status, StatusText(status))
      && |r.logs| == 2
      && r.logs[1] == LogCall(config.logger, config.level, Message(err.value), config.loggerAttrs)
    ensures err.Some? && AsError(err.value).Some? && marshalFailure.Some? ==>
      var status := GetHTTPCode(err);
      && r.response == HeaderOnly(500)
      && |r.logs| == 3 && r.logs[1] == r.logs[0]
      && r.logs[2].level == LevelError
      && r.logs[2].logger == HandlerConfig(current, status, opts).logger
      && r.logs[2].attrs == HttpAttrs(req, status)
    ensures err.Some? && AsError(err.value).Some? && marshalFailure.None? ==>
      var status := GetHTTPCode(err);
      var e := AsError(err.value).value;
      && r.response == Json(status, "application/json", ErrorHTTPResponse(ResponseMessage(e, status), e.userDetails))
      && r.logs[1] == r.logs[0]
      && |r.logs| == (if writeFailure.Some? then 3 else 2)
      && (writeFailure.Some? ==>
            && r.logs[2].level == LevelWarn
            && r.logs[2].logger == HandlerConfig(current, status, opts).logger
            && r.logs[2].attrs == HttpAttrs(req, status))
  {
    match err
    case None => Outcome(false, NoResponse, [])
    case Some(x) =>
      var status := GetHTTPCode(err);
      var config := HandlerConfig(current, status, opts);
      var httpAttrs := HttpAttrs(req, status);
      var logged := LogErr(err, opts + [UseLoggerAttrs(httpAttrs)]).value;
      var message := StatusText(status);
      match AsError(x)
      case None =>
        var direct := LogCall(config.logger, config.level, Message(x), config.loggerAttrs);
        Outcome(false, PlainText(status, message), [logged, direct])
      case Some(e) =>
        if marshalFailure.Some? then
          var failed := LogCall(config.logger, LevelError,
                                "failed to marshal error response: " + marshalFailure.value, httpAttrs);
          Outcome(true, HeaderOnly(500), [logged, logged, failed])
        else
          var body := ErrorHTTPResponse(ResponseMessage(e, status), e.userDetails);
          var writeLog :=
            if writeFailure.Some? then
              [LogCall(config.logger, LevelWarn, "failed to write error response: " + writeFailure.value, httpAttrs)]
            else [];
          Outcome(true, Json(status, "application/json", body), [logged, logged] + writeLog)
  }

  /** Foreign errors are never echoed: any two errors without an `*Error` in
      their chain that classify to the same status get the same response,
      the generic status text, whatever their messages say. */
  lemma ForeignErrorsAreRedacted(
    req: Request, x1: Err, x2: Err, opts: seq<LogErrOption>, current: Logger,
    mf: Option<string>, wf: Option<string>)
    requires AsError(x1).None? && AsError(x2).None?
    requires GetHTTPCode(Some(x1)) == GetHTTPCode(Some(x2))
    ensures HandleHTTP(req, Some(x1), opts, current, mf, wf).response == HandleHTTP(req, Some(x2), opts, current, mf, wf).response
    ensures !HandleHTTP(req, Some(x1), opts, current, mf, wf).handled
  {
  }

  /** Without a safe message and without `ExposeInternal`, the cause does not
      reach the response: two records that differ only in their `Internal`
      and classify alike render identically. */
  lemma InternalIsRedactedByDefault(
    req: Request, e: Error, other: Err, opts: seq<LogErrOption>, current: Logger,
    mf: Option<string>, wf: Option<string>)
    requires e.safeMessage == "" && !e.exposeInternal
    requires GetHTTPCode(Some(Structured(e))) == GetHTTPCode(Some(Structured(e.(internal := other))))
    ensures HandleHTTP(req, Some(Structured(e)), opts, current, mf, wf).response
         == HandleHTTP(req, Some(Structured(e.(internal := other))), opts, current, mf, wf).response
  {
  }

  /** The log calls made through `LogErr` always end with exactly the request
      attributes — a caller's own `LogErrUseLoggerAttrs` is overridden — and
      keep the caller's logger and level, which default to the error level
      rather than the level of the status. */
  lemma HandleHTTPLogsCarryRequest(
    req: Request, err: Err, opts: seq<LogErrOption>, current: Logger,
    mf: Option<string>, wf: Option<string>)
    ensures var r := HandleHTTP(req, Some(err), opts, current, mf, wf);
            var status := GetHTTPCode(Some(err));
            var first := r.logs[0];
            && |HttpAttrs(req, status)| <= |first.attrs|
            && first.attrs[|first.attrs| - |HttpAttrs(req, status)|..] == HttpAttrs(req, status)
            && first.level == Configure(DefaultLogErrOptions, opts).level
            && first.logger == Configure(DefaultLogErrOptions, opts).logger
  {
    var status := GetHTTPCode(Some(err));
    var o := UseLoggerAttrs(HttpAttrs(req, status));
    AppendLast(DefaultLogErrOptions, opts, o);
    assert Same(Configure(DefaultLogErrOptions, opts + [o]), Configure(DefaultLogErrOptions, opts), LevelField);
    assert Same(Configure(DefaultLogErrOptions, opts + [o]), Configure(DefaultLogErrOptions, opts), LoggerField);
  }

  /** With no options every `LogErr` call of `HandleHTTP` is at the error
      level, even for a 404 whose own log level is debug. */
  lemma HandleHTTPLogsAtErrorByDefault(req: Request, err: Err, current: Logger, mf: Option<string>, wf: Option<string>)
    ensures HandleHTTP(req, Some(err), [], current, mf, wf).logs[0].level == LevelError
  {
    HandleHTTPLogsCarryRequest(req, err, [], current, mf, wf);
  }

  /** `LogErr` logs through the logger that was the process default when the
      package was initialised, while the handler's own calls use the default
      of the moment: once the program installs another default logger, the
      two log calls for a foreign error go to different loggers, and only the
      second is at the level of the status. */
  lemma DefaultLoggerReadTwice(req: Request, x: Err, current: Logger)
    requires AsError(x).None?
    ensures var r := HandleHTTP(req, Some(x), [], current, None, None);
            var status := GetHTTPCode(Some(x));
            && r.logs[0].logger == DefaultLogger && r.logs[0].level == LevelError
            && r.logs[1].logger == current && r.logs[1].level == HTTPGetLogLevel(status)
  {
    HandleHTTPLogsCarryRequest(req, x, [], current, None, None);
  }

  /** The database-timeout scenario: an internal error marked with
      `DeadlineExceeded` and handled for `GET /users/42` gives a 504 whose
      JSON body holds the generic text and no details, reported as handled
      and logged at the error level with only the request attributes. */
  lemma DeadlineScenario(id: nat, current: Logger)
    requires Plain(id, "db timeout") !in Sentinels && Plain(id, "db timeout") != DeadlineExceeded
    ensures var err := Compose.Mark(Some(New(id, "db timeout", [])), DeadlineExceeded, []);
            var req := Request("GET", "/users/42", "10.0.0.1:5000");
            var r := HandleHTTP(req, err, [], current, None, None);
            && GetHTTPCode(err) == 504
            && r.handled
            && r.response == Json(504, "application/json", ErrorHTTPResponse("Gateway Timeout", None))
            && |r.logs| == 2
            && r.logs[0].level == LevelError
            && r.logs[0].message == "db timeout"
            && r.logs[0].attrs == HttpAttrs(req, 504)
  {
    var base := New(id, "db timeout", []);
    var err := Compose.Mark(Some(base), DeadlineExceeded, []);
    Compose.MarkIsMarker(base, DeadlineExceeded, []);
    Compose.MarkAddsIs(base, DeadlineExceeded, [], NotImplemented);
    assert !Is(base, NotImplemented);
    assert GetHTTPCode(err) == 504;
    var req := Request("GET", "/users/42", "10.0.0.1:5000");
    HandleHTTPLogsCarryRequest(req, err.value, [], current, None, None);
    var c := Configure(DefaultLogErrOptions, [UseLoggerAttrs(HttpAttrs(req, 504))]);
    assert c.loggerAttrs == HttpAttrs(req, 504);
  }
}

=== FILE: log.dfy ===
/** Log rendering (log.go, with the option record of opts.go): `LogErr` as a
    pure function from an error and an option list to the one call it makes
    on the structured logger, if any. */
module Log {
  import opened Values
  import opened Errs

  // The `slog.Level` values the library uses.
  const LevelDebug: int := -4
  const LevelWarn: int := 4
  const LevelError: int := 8

  /** A logger by identity; `DefaultLogger` stands for `slog.Default()`. */
  type Logger = nat
  const DefaultLogger: Logger := 0

  /** `LogErrOptions`: where to log, at which level, with which extra attributes. */
  datatype LogErrOptions = LogErrOptions(logger: Logger, level: int, loggerAttrs: seq<Any>)

  /** The three option setters `LogErrUseLogger`, `LogErrUseLogLevel`, `LogErrUseLoggerAttrs`. */
  datatype LogErrOption =
    | UseLogger(logger: Logger)
    | UseLogLevel(level: int)
    | UseLoggerAttrs(attrs: seq<Any>)

  const DefaultLogErrOptions: LogErrOptions := LogErrOptions(DefaultLogger, LevelError, [])

  datatype LogField = LoggerField | LevelField | AttrsField

  function Target(o: LogErrOption): LogField {
    match o
    case UseLogger(_) => LoggerField
    case UseLogLevel(_) => LevelField
    case UseLoggerAttrs(_) => AttrsField
  }

  /** `c` holds the value that `o` assigns. */
  predicate Holds(c: LogErrOptions, o: LogErrOption) {
    match o
    case UseLogger(l) => c.logger == l
    case UseLogLevel(l) => c.level == l
    case UseLoggerAttrs(a) => c.loggerAttrs == a
  }

  /** `a` and `b` hold the same value in field `f`. */
  predicate Same(a: LogErrOptions, b: LogErrOptions, f: LogField) {
    match f
    case LoggerField => a.logger == b.logger
    case LevelField => a.level == b.level
    case AttrsField => a.loggerAttrs == b.loggerAttrs
  }

  /** Running one setter: it overwrites its own field (attributes are replaced,
      not appended) and leaves the other two alone. */
  function Set(c: LogErrOptions, o: LogErrOption): (r: LogErrOptions)
    ensures Holds(r, o)
    ensures forall f | f != Target(o) :: Same(r, c, f)
  {
    match o
    case UseLogger(l) => c.(logger := l)
    case UseLogLevel(l) => c.(level := l)
    case UseLoggerAttrs(a) => c.(loggerAttrs := a)
  }

  /** `opts[i]` is the last option of `opts` that sets its field. */
  predicate LastOfItsField(opts: seq<LogErrOption>, i: int)
    requires 0 <= i < |opts|
  {
    forall j | i < j < |opts| :: Target(opts[j]) != Target(opts[i])
  }

  predicate Untouched(opts: seq<LogErrOption>, f: LogField) {
    forall i | 0 <= i < |opts| :: Target(opts[i]) != f
  }

  /** `for _, opt := range opts { opt(&config) }`: the last setter of each
      field wins, and fields no option sets keep their starting value. */
  function Configure(config: LogErrOptions, opts: seq<LogErrOption>): (r: LogErrOptions)
    decreases |opts|
    ensures forall i | 0 <= i < |opts| && LastOfItsField(opts, i) :: Holds(r, opts[i])
    ensures forall f | Untouched(opts, f) :: Same(r, config, f)
  {
    if opts == [] then config
    else
      var rest := opts[1..];
      var r := Configure(Set(config, opts[0]), rest);
      assert forall i | 1 <= i < |opts| :: opts[i] == rest[i - 1];
      assert forall i | 1 <= i < |opts| && LastOfItsField(opts, i) :: LastOfItsField(rest, i - 1);
      assert LastOfItsField(opts, 0) ==> Untouched(rest, Target(opts[0]));
      assert forall f | Untouched(opts, f) :: Untouched(rest, f);
      r
  }

  /** Running `a` then `b` is running `a + b`. */
  lemma {:induction false} ConfigureAppend(c: LogErrOptions, a: seq<LogErrOption>, b: seq<LogErrOption>)
    decreases |a|
    ensures Configure(c, a + b) == Configure(Configure(c, a), b)
  {
    if a != [] {
      assert (a + b)[1..] == a[1..] + b;
      ConfigureAppend(Set(c, a[0]), a[1..], b);
    } else {
      assert a + b == b;
    }
  }

  /** An option appended last decides its own field and leaves the other two
      as the earlier options made them. */
  lemma AppendLast(c: LogErrOptions, opts: seq<LogErrOption>, o: LogErrOption)
    ensures Holds(Configure(c, opts + [o]), o)
    ensures forall f | f != Target(o) :: Same(Configure(c, opts + [o]), Configure(c, opts), f)
  {
    ConfigureAppend(c, opts, [o]);
    assert Configure(Configure(c, opts), [o]) == Set(Configure(c, opts), o);
  }

  /** The one logger call `LogErr` makes. */
  datatype LogCall = LogCall(logger: Logger, level: int, message: string, attrs: seq<Any>)

  /** The `"domain", Domain` pair, present only for a non-empty domain. */
  function DomainAttrs(domain: string): seq<Any> {
    if domain != "" then [Str("domain"), Str(domain)] else []
  }

  /** `LogErr(ctx, err, opts...)`: nothing for nil; otherwise one call with the
      outermost message. When the chain holds an `*Error`, its log details
      come first, then its domain pair, then the configured attributes;
      otherwise only the configured attributes. */
  function LogErr(err: Option<Err>, opts: seq<LogErrOption>): (r: Option<LogCall>)
    ensures r.None? <==> err.None?
    ensures r.Some? ==>
      && r.value.message == Message(err.value)
      && r.value.logger == Configure(DefaultLogErrOptions, opts).logger
      && r.value.level == Configure(DefaultLogErrOptions, opts).level
    ensures r.Some? ==>
      var extra := Configure(DefaultLogErrOptions, opts).loggerAttrs;
      && |extra| <= |r.value.attrs|
      && r.value.attrs[|r.value.attrs| - |extra|..] == extra
    ensures r.Some? && AsError(err.value).None? ==>
      r.value.attrs == Configure(DefaultLogErrOptions, opts).loggerAttrs
    ensures r.Some? && AsError(err.value).Some? ==>
      var e := AsError(err.value).value;
      var extra := Configure(DefaultLogErrOptions, opts).loggerAttrs;
      && |r.value.attrs| == |e.logDetails| + (if e.domain != "" then 2 else 0) + |extra|
      && r.value.attrs[..|e.logDetails|] == e.logDetails
      && (e.domain != "" ==> r.value.attrs[|e.logDetails|..|e.logDetails| + 2] == [Str("domain"), Str(e.domain)])
  {
    match err
    case None => None
    case Some(x) =>
      var config := Configure(DefaultLogErrOptions, opts);
      var attrs :=
        match AsError(x)
        case Some(e) => e.logDetails + DomainAttrs(e.domain) + config.loggerAttrs
        case None => config.loggerAttrs;
      Some(LogCall(config.logger, config.level, Message(x), attrs))
  }

  /** With no options, `LogErr` logs at the error level on the default logger. */
  lemma LogErrDefaults(err: Err)
    ensures LogErr(Some(err), []).value.level == LevelError
    ensures LogErr(Some(err), []).value.logger == DefaultLogger
    ensures AsError(err).None? ==> LogErr(Some(err), []).value.attrs == []
  {
  }

  /** The domain pair is in the attributes exactly when the domain is non-empty:
      the attributes of a structured error and of the same error with its
      domain cleared differ by that pair alone. */
  lemma DomainPairIffNonEmpty(e: Error, opts: seq<LogErrOption>)
    ensures var with := LogErr(Some(Structured(e)), opts).value.attrs;
            var without := LogErr(Some(Structured(e.(domain := ""))), opts).value.attrs;
            && (e.domain == "" <==> with == without)
            && (e.domain != "" ==> |with| == |without| + 2)
  {
    var extra := Configure(DefaultLogErrOptions, opts).loggerAttrs;
    var with := LogErr(Some(Structured(e)), opts).value.attrs;
    var without := LogErr(Some(Structured(e.(domain := ""))), opts).value.attrs;
    assert without == e.logDetails + [] + extra;
  }
}

=== FILE: values.dfy ===
/** Small value types shared by every module of the model: an optional value
    (Go's nil-able pointers and interfaces) and the dynamically typed `any`
    payloads the library stores in log attributes and response details. */
module Values {

  /** `None` stands for Go's nil. */
  datatype Option<+T> = None | Some(value: T) {

    /** The carried value, or `default` when this is `None`. */
    function GetOr(default: T): T {
      match this
      case Some(v) => v
      case None => default
    }
  }

  /** A Go `any` value, as far as the library inspects it: it only stores
      such values and hands them on to the logger or the JSON encoder. */
  datatype Any = Str(s: string) | Int(i: int) | Bool(b: bool) | Opaque(id: nat)
}
